=== FILE: README.md ===
# quran-go in Dafny

A model of the data-shaping and decision code of quran-go, a Go service that ingests the
semarketir/quranjson corpus into SQLite and serves it over HTTP. The model covers:

- **Ingestion** (`internal/data/ingest.go`). The surah catalogue becomes surah rows. Each surah's
  Arabic and translation documents become ayah rows. Both are written with `INSERT OR REPLACE`,
  modelled as map update. The run is a fold over what the fetches returned, and it stops at the
  first failed Arabic fetch.
- **Paths and URLs** (`internal/data/fetch.go`, `internal/fetch.go`). These cover the request URL,
  the status check in `get`, the Arabic, tajweed and translation paths, and the audio links. The
  remote host is a function from URL to reply.
- **Admission middleware** (`internal/httpx/middleware.go`). `RateLimit` is one global token
  counter, modelled as a state machine driven by tick and request events. `CORS` is a pure
  decision on the allow-origin and the preflight answer.
- **Query handling** (`internal/db/db.go` `SearchAyah`, and the `/surah/:n`, `/search` and
  `/stats` handlers of quran-api and quran-all). The surah-number check, the trimmed 100-byte
  query bound, the wildcard for a blank query and the limit of 50 are modelled. So are the
  consistency report and the order `RateLimit(CORS(router))`. The full-text engine is a function
  from highlight markers and query text to hits.
- **The offline verifier** (`cmd/quran-verify/main.go`). It counts the mismatching rows and gives
  the pass/fail verdict. It is proved strictly stronger than `/stats` ok.
- **Configuration** (all four commands). This covers the environment fallback chains and the
  self-check's rewrite of a bind address to a loopback health URL.
- **The web page** (`cmd/quran-web/main.go`, and the web half of `cmd/quran-all/main.go`). This
  covers the `/s/<n>` chapter parse, the `n:a` reference labels, the bookmark link and the raw
  search.

Go library behaviour the code depends on is written out:

- `strings.TrimSpace` uses Go's full White_Space set.
- `len` on a string counts UTF-8 bytes.
- `strconv.ParseInt` and `Atoi` accept a sign, return 0 on a syntax error and clamp on a range
  error.
- `%03d` pads to three digits.
- `http.Error` appends a newline and sets `Content-Type` and `X-Content-Type-Options`.
- gin answers 404 to a method it has no route for.
- SQLite treats a negative `LIMIT` as no limit.

Modules: `Wrappers`, `Text`, `Numbers`, `Json`, `Fetch`, `Tables`, `Ingest`, `Http`,
`Middleware`, `Search`, `Config`, `Api`, `Verify` and `Web`. There is one file per module.

Where the code and its documentation part ways, the model follows the code:

- The rate limit is one counter shared by every client, not a per-client bucket. It is reset to
  the full limit when a minute tick has been seen; it does not refill continuously.
- Catalogue entries whose `index` is a syntax error are written at surah number 0, not skipped.
  An `index` that overflows 32 bits is written at 2147483647.
- `SearchAyah` passes its `limit` through unchanged, with no clamp.

## Model

| member | source | states |
|---|---|---|
| Text.TrimSpace | internal/db/db.go:33 | The result has no leading or trailing white space. It is the input with a white-space prefix and a white-space suffix removed. It is empty exactly when the input is all white space. |
| Text.TrimSpaceIdempotent | internal/db/db.go:33 | Trimming twice is trimming once. |
| Text.ByteLen | cmd/quran-api/main.go:93 | `len` counts UTF-8 bytes: between 1 and 4 per character, and exactly 1 per character for ASCII text. |
| Text.BeforeFirst | cmd/quran-web/main.go:91 | `split(sep)[0]`: a prefix of the input without `sep`, followed in the input by `sep` unless it is the whole input. |
| Text.BeforeFirstStops | cmd/quran-web/main.go:91 | Splitting `a + sep + b` gives back `a` whenever `a` has no `sep`. |
| Text.TrimLeftChar | internal/data/ingest.go:20 | `strings.TrimLeft(s, "0")` removes only a leading run of zeros, and the result does not start with `0`. |
| Numbers.Itoa | cmd/quran-web/main.go:196 | `strconv.Itoa` prints the shortest numeral. A non-negative number gets digits denoting it, with a leading `0` only for zero itself. A negative number gets `-` and then the digits of its magnitude, with no leading zero. |
| Numbers.ItoaInjective | cmd/quran-web/main.go:196 | Distinct numbers print differently. |
| Numbers.Pad3 | internal/data/fetch.go:49 | `%03d` of 0..999 is exactly three digits denoting the number; from 1000 on it is the plain numeral. |
| Numbers.ParseInt | internal/data/ingest.go:20 | `strconv.ParseInt` succeeds exactly when the text is an optional sign and a non-empty run of decimal digits whose value fits the bit size; the value is then that numeral's value. A syntax error (nothing after the sign, or a non-digit met before the digits overflow the unsigned width) yields 0. Any other failure is a range error and yields the bound on the numeral's side: the most negative value after `-`, otherwise the largest. |
| Numbers.Atoi | cmd/quran-api/main.go:74 | `strconv.Atoi` is the 64-bit parse: it succeeds exactly on an optionally signed numeral within int64, giving its value. A syntax error gives 0, and a range error gives the int64 bound on the numeral's side. |
| Numbers.ParseSyntaxError | internal/httpx/middleware.go:28 | An optional sign, digits that fit the unsigned width, then any non-digit (`5x`, `+12abc`, `1 `) is a syntax error and parses to 0. |
| Numbers.SyntaxErrorExample | cmd/quran-web/main.go:181 | `Atoi("5x")` is 0 with an error. |
| Numbers.ParseLoneSign | internal/data/ingest.go:20 | A lone `+` or `-` parses to 0 with an error. |
| Numbers.ParseItoa | cmd/quran-api/main.go:74 | Parsing the numeral of any in-range number gives that number with no error. Printing and parsing round-trip. |
| Numbers.ParseNonNumeric | cmd/quran-web/main.go:181 | Empty text, or text that starts with neither a digit nor a sign, parses to 0 with an error. |
| Json.DecodeObject | internal/data/fetch.go:21 | Decoding into `map[string]any` succeeds exactly on an object or `null`. An object gives its fields, and `null` gives the empty map. |
| Json.DecodeObjectList | internal/data/fetch.go:24-28 | A catalogue list decodes exactly when every element is an object, element by element. |
| Json.DecodeObjects | internal/data/fetch.go:21-27 | Decoding into `[]map[string]any` succeeds exactly on `null` or an array whose every element decodes. `null` gives the empty list, and an array gives one object per element, in order. |
| Fetch.RequestUrl | internal/data/fetch.go:13 | The request URL is `rawBase`, a slash, and then the path unchanged. |
| Fetch.Get | internal/data/fetch.go:12-22 | The request goes to `rawBase + "/" + path`. A reply succeeds exactly when it has status 200 and a decodable body. No connection is a transport error naming the URL. Any other status is an error carrying the URL and that status, and the body is then not decoded. A failure after a 200 is a decode error, which carries no URL. |
| Fetch.GetObject | internal/fetch.go:12-21 | The same status rule for a document expected to be a JSON object. A non-object body is a decode error. `get`'s own error passes through unchanged. |
| Fetch.FetchSurahIndex | internal/data/fetch.go:24-28 | The catalogue is `surah.json`. It succeeds exactly when the fetch succeeds and the body is a list of objects, and its value is then that decoded list. A failed fetch returns the fetch error unchanged. |
| Fetch.ArabicPath | internal/data/fetch.go:30-33 | The Arabic path `surah/surah_<n>.json` gives back the surah number it was built from, for any int64 number. |
| Fetch.FetchArabicSurah | internal/data/fetch.go:30-34 | The Arabic fetch succeeds exactly when the URL of surah `n`'s Arabic path serves an object with status 200, and then returns that object. A failure is a decode error exactly when the host answered 200. Otherwise it is a transport or status error naming that URL. |
| Fetch.TajweedPath | internal/data/fetch.go:36-39 | The tajweed path `tajweed/surah_<n>.json` gives back its number. |
| Fetch.FetchTajweed | internal/data/fetch.go:36-40 | The tajweed fetch succeeds exactly when the URL of surah `n`'s tajweed path serves an object with status 200, and then returns that object. A failure is a decode error exactly when the host answered 200. Otherwise it is a transport or status error naming that URL. Ingestion never calls it. |
| Fetch.ArabicPathUnpadded | internal/fetch.go:32-35 | The Arabic path's number is not zero-padded: surah 1 is `surah_1.json`. |
| Fetch.TranslationPath | internal/data/fetch.go:42-45 | The translation path `translation/<lang>/<lang>_translation_<n>.json` gives back its language and number, for a language without `/`. |
| Fetch.FetchTranslation | internal/data/fetch.go:42-46 | The translation fetch succeeds exactly when the URL of the translation path for `lang` and `n` serves an object with status 200, and then returns that object. A failure is a decode error exactly when the host answered 200. Otherwise it is a transport or status error naming that URL. |
| Fetch.TranslationPathSplits | internal/fetch.go:46-49 | The language is the path segment before the first `/` after `translation/`. |
| Fetch.AudioUrl | internal/data/fetch.go:48-50 | The audio link, `rawBase/audio/<%03d surah>/<%03d ayah>.mp3`, reads back as the surah and ayah for numbers 0..999. |
| Fetch.AudioUrlInjective | internal/fetch.go:54-56 | Distinct ayahs of surahs 1..114 with ayah numbers 1..999 get distinct audio links. |
| Ingest.IndexEntry | internal/data/ingest.go:18-30 | An entry with an absent, non-string or empty `index` yields no row. Otherwise the row's number is the parsed index. Its Arabic name is the trimmed `titleAr`, or the trimmed `title` when `titleAr` is empty. Its Latin name is the untrimmed `title`, its revelation is `place`, and its verse count is `count` (0 when not a number). |
| Ingest.IndexNumber | internal/data/ingest.go:20-21 | The surah number of an `index` is the 32-bit parse of the text after its leading zeros. A numeral gives its value, a syntax error gives 0, and an overflow gives the 32-bit bound on its side. |
| Ingest.IndexNumberOfPad3 | internal/data/ingest.go:20 | A three-digit index such as `001` or `114` gives back its number. |
| Ingest.IndexNumberOfPadded | internal/data/ingest.go:20 | Any number of leading zeros before a positive 32-bit numeral is ignored. |
| Ingest.IndexNumberUnparsable | internal/data/ingest.go:20-21 | A non-empty index that is a syntax error once its leading zeros are removed, such as `000`, `abc` or `5a`, still yields a row, at number 0. |
| Ingest.IndexNumberOverflow | internal/data/ingest.go:20 | An index whose digits overflow 32 bits, such as `99999999999`, is written at 2147483647, the clamped bound, and not at 0. |
| Ingest.IndexRows | internal/data/ingest.go:15-31 | The catalogue becomes one possible write per entry, in order. |
| Ingest.UpsertAll | internal/data/ingest.go:29-30 | `INSERT OR REPLACE` never drops a key, and the last write leaves its row at its key. |
| Ingest.UpsertAllKeys | internal/data/ingest.go:29-30 | After a sequence of upserts, a key is present exactly when it was present before or some write names it. |
| Ingest.UpsertAllLastWins | internal/data/ingest.go:29-30 | The last write to a key determines its row, so a later catalogue entry with the same number replaces an earlier one. |
| Ingest.UpsertAllKeeps | internal/data/ingest.go:29-30 | A row that no write names is unchanged. |
| Ingest.UpsertAllIdempotent | internal/data/ingest.go:29-30 | Applying the same writes twice gives the same table as applying them once. |
| Ingest.LastWriterExists | internal/data/ingest.go:29-30 | Every key that is written has a last write. |
| Ingest.AyahBatch | internal/data/ingest.go:46-54 | One surah's transaction writes exactly ayahs 1..count of that surah. Each row has the trimmed `verse_i`, an empty tajweed, the untrimmed translation `verse_i`, juz 1 and the audio link. |
| Ingest.AyahFor | internal/data/ingest.go:47-53 | An ayah row has juz 1 and an empty tajweed. Its Arabic text is the `verse_<i>` entry of the Arabic document with surrounding space trimmed. Its translation is the `verse_<i>` entry of the translation document, untrimmed, and empty when that document is missing. Its audio link reads back as its surah and ayah. |
| Ingest.SurahSources | internal/data/ingest.go:34-37 | The run fetches the documents of exactly the 114 surahs: position `k` holds the Arabic and translation fetches of surah `k + 1` in the run's language. |
| Ingest.FirstFailure | internal/data/ingest.go:35 | This is the position of the first failed Arabic fetch: every earlier fetch succeeded. |
| Ingest.IngestSurahs | internal/data/ingest.go:34-56 | The surah loop keeps the catalogue and every existing ayah key. It returns nil exactly when every Arabic fetch succeeded. Otherwise it returns the error of the first failed surah, every earlier fetch having succeeded. |
| Ingest.IngestRun | internal/data/ingest.go:12-58 | A failed catalogue fetch returns its error and writes nothing. Otherwise the catalogue is upserted, and the run returns nil exactly when every Arabic fetch succeeded, or else the error of a failed surah. |
| Ingest.IngestAll | internal/data/ingest.go:12-58 | `IngestAll` against a source returns nil exactly when the catalogue and all 114 Arabic documents can be fetched. A surah error names a surah in 1..114 whose Arabic fetch returned that error. A catalogue failure writes nothing. |
| Ingest.WrittenRows | internal/data/ingest.go:46-54 | The loop writes exactly ayahs 1..count of each surah before the first failure, each with the row built from that surah's documents. |
| Ingest.IngestSurahsWrites | internal/data/ingest.go:34-56 | The loop leaves the store as it was, plus those rows upserted. It returns the first failure's error, or nil. |
| Ingest.RunWritesSurah | internal/data/ingest.go:46-55 | For each surah committed in a run, ayahs 1..count hold the rows built from its documents. No other key of that surah appears. Ayah rows above the count left by an earlier run survive unchanged. |
| Ingest.RunAbortsAtFailure | internal/data/ingest.go:34-35 | An Arabic fetch failure at surah k returns that surah's error. The catalogue and surahs 1..k-1 stay written, and no row of surah k or later changes. |
| Ingest.RunSucceeds | internal/data/ingest.go:57 | A run in which every Arabic fetch succeeded returns nil. |
| Ingest.RunIndexFailure | internal/data/ingest.go:13 | A failed catalogue fetch returns its error and writes nothing. |
| Ingest.IngestRunIdempotent | internal/data/ingest.go:12-58 | A second run on the same documents leaves the store as the first left it and returns the same error. |
| Ingest.IngestAllIdempotent | internal/data/ingest.go:12-58 | `IngestAll` twice against an unchanged source equals `IngestAll` once. |
| Ingest.TranslationNeverFails | internal/data/ingest.go:37 | Whatever a translation fetch returns, the run returns the same error and writes the same ayah keys. |
| Ingest.TranslationFailureBlank | internal/data/ingest.go:41-42 | When a surah's translation fetch failed, every ayah row written for it has an empty translation. |
| Ingest.FirstFailureIgnoresTranslation | internal/data/ingest.go:35-37 | Only the Arabic fetches decide where the run stops. |
| Ingest.WrittenKeysIgnoreTranslation | internal/data/ingest.go:37-42 | A different translation result changes no written key. |
| Ingest.WrittenKeysFollowArabic | internal/data/ingest.go:34-47 | Which ayah keys a run writes depends only on what the Arabic fetches returned: the verse count comes from the Arabic document alone. |
| Middleware.RatePerMin | internal/httpx/middleware.go:28-29 | The limit is always positive. A positive numeral is taken as the limit. Zero, a negative numeral or a syntax error gives 120. A numeral too large for int64 gives the largest int64, and one too small gives 120. |
| Middleware.RatePerMinOfNumeral | internal/httpx/middleware.go:28-29 | A positive numeral is taken as the limit. |
| Middleware.RatePerMinNonPositive | internal/httpx/middleware.go:29 | Zero or a negative numeral falls back to 120. |
| Middleware.RatePerMinUnparsable | internal/httpx/middleware.go:28-29 | An unset variable, or one that is a syntax error (`abc`, `5x`, `+`), falls back to 120. |
| Middleware.RatePerMinOverflow | internal/httpx/middleware.go:28-29 | A numeral beyond int64 is a range error, and `Atoi`'s clamped value becomes the limit. |
| Middleware.NewLimiter | internal/httpx/middleware.go:30-31 | The counter starts full, within bounds and with no tick pending. |
| Middleware.Tick | internal/httpx/middleware.go:31-37 | A tick leaves the counter untouched until the next request observes it. The next request then sees the full limit: a reset, not an addition. |
| Middleware.Admission | internal/httpx/middleware.go:33-41 | A request is admitted exactly when the observed counter is positive. Admission takes one token; a denial leaves the counter as observed. |
| Middleware.RateLimit | internal/httpx/middleware.go:38-42 | A denied request gets `rate limit` with status 429 and never reaches the wrapped handler. An admitted one gets the wrapped handler's reply. |
| Middleware.RateLimitShared | internal/httpx/middleware.go:30-43 | Admission and the next counter do not depend on the request or on the wrapped handler. An admitted request gets the wrapped handler's own response, and a denied one gets the same 429 whoever sent it. |
| Middleware.Run | internal/httpx/middleware.go:30-41 | Replaying events keeps the configured limit and gives exactly one decision per request. |
| Middleware.RunValid | internal/httpx/middleware.go:30-41 | Over any event sequence the counter stays within 0..limit, and every request gets a decision. |
| Middleware.RunBudget | internal/httpx/middleware.go:33-41 | Admissions plus the tokens left never exceed the starting tokens plus one full limit per tick. |
| Middleware.AtMostLimitWithoutTicks | internal/httpx/middleware.go:38-41 | With no tick in between, at most `limit` requests are admitted. |
| Middleware.BurstDecisions | internal/httpx/middleware.go:38-42 | In a tick-free burst, exactly the first `tokens` requests are admitted, and the counter ends at the remainder or 0. |
| Middleware.FreshBurst | internal/httpx/middleware.go:30-42 | A fresh wrapper admits the first `limit` requests of a burst and denies every later one. |
| Middleware.RunIgnoresRequests | internal/httpx/middleware.go:30-43 | Two event sequences with ticks in the same places give the same decisions and the same final state, whatever the requests are. |
| Middleware.AllowOrigin | internal/httpx/middleware.go:12-15 | The allow-origin is never empty and has no comma. It is `*`, or the text of the variable before its first comma. |
| Middleware.AllowOriginFirstEntry | internal/httpx/middleware.go:12-15 | A non-empty first comma-separated entry is the allow-origin. |
| Middleware.AllowOriginWildcard | internal/httpx/middleware.go:14-15 | An unset variable, or one with an empty first entry, gives `*`. |
| Middleware.Cors | internal/httpx/middleware.go:16-23 | An OPTIONS request gets 204 with no body. Every other request gets the next handler's status and body. The origin and Vary headers are always set. |
| Middleware.PreflightIgnoresNext | internal/httpx/middleware.go:18-22 | A preflight's reply does not depend on the next handler or on the request, and it allows `GET,OPTIONS`. |
| Middleware.CorsOriginFixed | internal/httpx/middleware.go:14-16 | The allow-origin header is the configured one and never depends on the request's Origin. |
| Search.NormaliseQuery | internal/db/db.go:33-34 | The query sent to the engine is never empty and has no surrounding white space. A blank query becomes `*`; any other query is the trimmed input. |
| Search.NormaliseIdempotent | internal/db/db.go:33-34 | Normalising twice is normalising once. |
| Search.NormaliseAfterTrim | internal/db/db.go:33-34 | Trimming before normalising changes nothing. |
| Search.Limit | internal/db/db.go:41 | `LIMIT n` keeps a prefix of the rows: the first `min(n, rows)` of them, or every row for a negative `n`. |
| Search.HitKeys | internal/db/db.go:35 | The (surah, ayah) key of each hit, in order. |
| Search.LimitKeepsKeys | internal/db/db.go:41 | Two result lists with the same keys still have the same keys after the same `LIMIT`. |
| Search.SearchAyah | internal/db/db.go:28-43 | The engine sees the normalised query and highlights with `<b>` and `</b>`. Its error is returned as is. Its hits are cut to a prefix of at most `limit`, and they are kept whole when fewer than `limit`. |
| Search.EmptyQueryIsWildcard | internal/db/db.go:34 | An empty query searches exactly as `*` does. |
| Search.SearchAfterTrim | internal/db/db.go:33 | Searching a trimmed query is the same as searching the raw one. |
| Config.DbPath | cmd/quran-api/main.go:25-26 | The database path is `QURAN_DB_PATH`, or `quran.db` when that is empty. The same rule applies in quran-all, quran-web and quran-verify. |
| Config.ApiBind | cmd/quran-api/main.go:23-24 | The API bind is `QURAN_BIND`, or `:8080` when that is empty. |
| Config.SettingOr | cmd/quran-api/main.go:23-24 | A setting is its variable when that is non-empty, and the fallback otherwise, so it is never empty with a non-empty fallback. |
| Config.WebBind | cmd/quran-web/main.go:143-144 | The web bind is `QURAN_BIND`, or `:8090` when that is empty. |
| Config.AllApiBind | cmd/quran-all/main.go:30-32 | quran-all's API bind is `QURAN_API_BIND` when that is set, and otherwise the bind quran-api would choose. It is never empty. |
| Config.AllApiBindChain | cmd/quran-all/main.go:30-32 | The API bind is the first non-empty of `QURAN_API_BIND`, `QURAN_BIND` and `:8080`. |
| Config.AllApiBindAsApi | cmd/quran-all/main.go:30-32 | Without `QURAN_API_BIND`, quran-all binds its API where quran-api would. |
| Config.AllWebBind | cmd/quran-all/main.go:33-34 | quran-all's web bind is `QURAN_WEB_BIND`, or `:8090` when that is empty. |
| Config.FirstSet | cmd/quran-all/main.go:30-32 | The first non-empty value of a fallback chain: empty only when every value is, and otherwise preceded only by empty values. |
| Config.LoopbackAddr | cmd/quran-api/main.go:28-36 | The rewrites are checked in order. `:port` becomes `127.0.0.1:port`. `0.0.0.0:rest` and `[::]:rest` become `127.0.0.1:rest`. Any other bind is kept. |
| Config.LoopbackKeepsPort | cmd/quran-all/main.go:38-46 | The rewrite never changes the port, meaning the text after the last colon. |
| Config.LoopbackIdempotent | cmd/quran-web/main.go:150-158 | Every rewritten address is left alone by a second rewrite. |
| Config.HealthUrl | cmd/quran-api/main.go:29-37 | The self-check URL is `http://`, then the bind with a bare or wildcard host rewritten to `127.0.0.1`, then `/healthz`; that address keeps the bind's port. |
| Config.PortOnlyHealthUrl | cmd/quran-api/main.go:30-37 | A bare `:port` bind is checked at `http://127.0.0.1:port/healthz`. |
| Config.DefaultHealthUrls | cmd/quran-api/main.go:37 | The default binds check `http://127.0.0.1:8080/healthz` and `http://127.0.0.1:8090/healthz`. |
| Config.Ipv4WildcardHealthUrl | cmd/quran-api/main.go:32-33 | `0.0.0.0:9000` checks `http://127.0.0.1:9000/healthz`. |
| Config.Ipv6WildcardHealthUrl | cmd/quran-api/main.go:34-35 | `[::]:9000` checks `http://127.0.0.1:9000/healthz`. |
| Config.PortOfShape | cmd/quran-api/main.go:28-37 | The port is a colon-free suffix of the address. When it is shorter than the address, a colon comes right before it, so it is the text after the last colon. |
| Http.Error | internal/httpx/middleware.go:39 | `http.Error` replies with the given status and the message plus a newline, and sets exactly the content-type and nosniff headers. |
| Tables.AyahsOf | cmd/quran-api/main.go:86 | The ayahs of surah `n` are exactly the stored rows keyed `(n, j)`. |
| Tables.OrderedEntries | cmd/quran-api/main.go:67 | `ORDER BY number`: every entry exactly once, with its row, in strictly increasing key order. |
| Tables.AscendingSorted | cmd/quran-api/main.go:86 | The ordering of a set of numbers is strictly increasing. |
| Tables.AscendingMembers | cmd/quran-api/main.go:86 | The ordering lists exactly the members of the set, each once. |
| Api.SurahListOf | cmd/quran-api/main.go:59-71 | `/surah` lists every surah row exactly once, in number order. |
| Api.SurahNumber | cmd/quran-api/main.go:74-77 | `:n` is accepted exactly when `Atoi` succeeds and the value is in 1..114. |
| Api.SurahNumberOfNumeral | cmd/quran-all/main.go:97-100 | The numeral of `n` is accepted exactly when 1 <= n <= 114, so 0 and 115 are rejected. |
| Api.SurahNumberRejects | cmd/quran-api/main.go:75-77 | Non-numeric text is rejected, and so are `0` and `115`. |
| Api.SurahNumberLenient | cmd/quran-api/main.go:74 | `Atoi` accepts a sign and leading zeros: `+7` and `007` select surah 7. |
| Api.AyahList | cmd/quran-api/main.go:86 | The ayahs of the surah in number order: every stored row once, with its columns. |
| Api.GetSurah | cmd/quran-api/main.go:72-90 | The reply is 400 exactly when the number is rejected. Otherwise it is 200 with the surah's ordered ayahs. |
| Api.GetSurahRejectsBeforeRead | cmd/quran-api/main.go:75-77 | A rejected number is answered without reading the store: every store gives the same reply. |
| Api.SearchHandler | cmd/quran-api/main.go:91-97 | The reply is 400 exactly when the trimmed query exceeds 100 bytes. Otherwise the store is searched with the trimmed query and limit 50, giving 200 with the hits or 500 with the engine's error. |
| Api.SearchReturnsAtMostLimit | cmd/quran-all/main.go:114-120 | An accepted search returns at most 50 hits: a prefix of the engine's matches for the normalised query. |
| Api.SearchAcceptsHundredBytes | cmd/quran-api/main.go:93 | A 100-byte query passes the length check. |
| Api.SearchRejectsHundredOneBytes | cmd/quran-api/main.go:93 | A 101-byte query is rejected with 400. |
| Api.SearchCountsBytes | cmd/quran-api/main.go:93 | The bound counts bytes, not characters: 51 Arabic letters (102 bytes) are rejected. |
| Api.CountRows | cmd/quran-api/main.go:116-122 | The count query gives each surah row once, in number order, with its declared verse count and its number of stored ayahs. |
| Api.MismatchesMembers | cmd/quran-api/main.go:123-124 | A row is in the mismatch list exactly when it is one of the counted rows and its declared and stored counts differ. |
| Api.MismatchesOrdered | cmd/quran-api/main.go:123-124 | The mismatch list keeps surah order. |
| Api.MismatchesEmpty | cmd/quran-api/main.go:126 | The list is empty exactly when every row is consistent. |
| Api.StatsOf | cmd/quran-api/main.go:125-131 | The report's mismatches are the inconsistent count rows, and `ok` holds exactly when there are 114 surahs and no mismatch. |
| Api.StatsOkIff | cmd/quran-all/main.go:144-147 | `/stats` is ok exactly when the store holds 114 surahs and each one's declared verse count equals its number of stored ayahs. |
| Api.Mismatches | cmd/quran-api/main.go:123-124 | The mismatch list is no longer than the rows, holds only inconsistent counted rows, and is empty when every row is consistent. |
| Api.StatsHandler | cmd/quran-api/main.go:125 | `/stats` always answers 200 with the report. |
| Api.JsonReply | cmd/quran-api/main.go:58-70 | A JSON reply has the given status and carries the payload as its body. |
| Api.NotFound | cmd/quran-api/main.go:56 | A request no route matches gets 404 with a text body. |
| Api.SurahParam | cmd/quran-api/main.go:72 | The `:n` route matches exactly when the path is `/surah/` followed by one non-empty segment without a slash, and then yields that segment. |
| Api.Router | cmd/quran-api/main.go:55-97 | Only GET routes exist. Any other method gets 404. `/healthz` answers 200 with the health payload, `/surah` answers 200 with the surah list, `/surah/<n>`, `/search` and `/stats` reach their handlers, and every other path gets 404. |
| Api.Serve | cmd/quran-api/main.go:134-135 | The served handler takes one admission decision per request. A denial is a bare 429. An admitted preflight gets 204 with no body. Any other admitted request gets the router's status and body. Every admitted reply carries the allow-origin header. |
| Api.DeniedBeforeCors | cmd/quran-all/main.go:154-155 | A denied request gets a bare 429 with no CORS headers: it reaches neither CORS nor the router. |
| Api.PreflightTakesToken | cmd/quran-api/main.go:134-135 | An admitted preflight gets 204 and uses up a token. |
| Api.AdmittedReachesRouter | cmd/quran-api/main.go:134-135 | An admitted request other than a preflight gets the router's status and body under the CORS headers. |
| Verify.CountBad | cmd/quran-verify/main.go:37-38 | The loop lists exactly the rows whose declared and stored counts differ, in row order. `bad` is their number. |
| Verify.LinesOf | cmd/quran-verify/main.go:37-38 | One mismatch line is printed for each listed row, in the same order. |
| Verify.VerifyDb | cmd/quran-verify/main.go:21-43 | Verification passes exactly when there are 114 surahs, no bad row and a non-empty tail of surahs 94..114. This is the same as `/stats` ok plus a non-empty tail. The OK line is printed only on a pass. |
| Verify.VerifyImpliesStatsOk | cmd/quran-verify/main.go:40 | A store that passes verification reports ok on `/stats`. |
| Verify.StatsOkDoesNotImplyVerify | cmd/quran-verify/main.go:40-42 | The converse fails. A store of 114 surahs declaring no verses and holding no ayahs is ok on `/stats` but fails on its empty tail. |
| Web.ChapterParam | cmd/quran-web/main.go:181 | The chapter is `Atoi` of the text after `/s/`. A numeral within int64 selects its value, a syntax error selects 0, and a numeral beyond int64 selects the bound on its side. |
| Web.ChapterParamOfNumeral | cmd/quran-web/main.go:181 | `/s/<numeral>` selects that number with no range check, including `0`, `115` and negative numbers. |
| Web.ChapterParamNonNumeric | cmd/quran-web/main.go:181 | `/s/` followed by text that is a syntax error for `Atoi`, such as `abc` or `5x`, selects chapter 0. |
| Web.NonNumericChapterIsZero | cmd/quran-all/main.go:299 | Such a page shows what the store holds under surah 0. |
| Web.RefLabel | cmd/quran-web/main.go:196 | The label contains a colon; the text before the first colon is the chapter numeral, and the text after it is the ayah numeral. |
| Web.RefLabelRoundTrip | cmd/quran-all/main.go:314 | A label `n:a` reads back as its chapter and ayah. |
| Web.RefLabelInjective | cmd/quran-web/main.go:196 | Distinct ayahs get distinct labels. |
| Web.BookmarkLinkSelectsChapter | cmd/quran-web/main.go:91 | A bookmark links to `/s/` plus the label's text before its colon, and that link selects the bookmarked chapter. |
| Web.Chapter | cmd/quran-web/main.go:189-197 | The chapter page holds exactly the stored ayahs of the selected chapter, each with its row and its label. |
| Web.WebSearch | cmd/quran-web/main.go:206-216 | The web search sends the raw `q` to the engine with `<mark>` and `</mark>` as highlight markers. It fails exactly when the engine does, with the engine's error. Otherwise it keeps exactly the first `min(hits, 50)` hits. |
| Web.WebSearchAgreesOnTrimmed | cmd/quran-web/main.go:206-216 | For a query that is already trimmed and not blank, and an engine whose matches do not depend on the highlight markers, the web search and the API search (internal/db/db.go:28-43) fail alike, with the same error, or find the same (surah, ayah) keys in the same order. The snippets differ in their markers. |
| Web.BlankQueryDiffers | cmd/quran-web/main.go:207 | For a blank query they differ. With a hypothetical engine that rejects an empty match expression, the web search fails while the API search, which sends `*`, succeeds. |

## Left out

- Network I/O: `http.Get`, reading the body and `json.Decoder`. The remote host is a function
  from URL to status and decoded body. A transport failure is one reply value.
- JSON numbers are integers. The `float64`-to-`int` conversion of `count` is not modelled.
- SQLite itself is not modelled: `Open`, `Migrate` (`migrate.sql` is not part of this model),
  the WAL pragma, transactions as atomic units, `MustExec` panics, commit errors and read errors
  that lead to a 500. Every write succeeds, and every read returns the modelled tables.
- FTS5 is not modelled: `MATCH` tokenisation, ranking and `snippet()`. The engine is a function
  from highlight markers and query text to hits or an error. The web and API searches are
  therefore compared only on the (surah, ayah) keys of their hits, not on the snippets.
- Time and concurrency. The minute ticker is an explicit tick event. The one-slot ticker channel
  becomes a pending flag, so missed ticks coalesce. The unsynchronised shared `tokens` variable
  (a data race) and the goroutines and shutdown of quran-all are not modelled.
- The HTML and JavaScript of the web pages, the template, HTML escaping and the `/` surah index
  page. The page writing in `/s/` and `/search` is not modelled. Of the script, only the bookmark
  link's `split(":")[0]` is modelled.
- The TUI, the CLI, the seed script and the Svelte front end are not modelled.
- gin's recovery middleware and trailing-slash redirects. The router matches exact paths.
- The HTTP servers' timeouts, the self-check's HTTP client and exit codes, and log prefixes. The
  self-check is modelled up to the URL it requests.
- Verify.VerifyDb: the three counts and the rows are taken from the modelled store. The failure
  line's text is modelled, but not what `log.Fatalf` adds to it: the timestamp prefix, writing it
  to stderr while the other lines go to stdout, and exit status 1. The exit status is the
  `passed` result.
- Strings are sequences of Unicode characters, while Go strings are arbitrary bytes. Text that is
  not valid UTF-8, such as the query `q=%FF`, cannot be given to `Text.ByteLen`,
  `Text.TrimSpace` or `Api.SearchHandler`. In Go such a byte counts as one byte and is not
  white space.
- Web.Chapter: the rows are returned keyed by ayah number. The unordered SQL result order is not
  modelled.

=== FILE: api.dfy ===
/** The JSON API of quran-api, and the identical API quran-all serves: request validation, the
    `/stats` consistency report, and the middleware order around the router. */
module Api {
  import opened Wrappers
  import opened Text
  import opened Numbers
  import opened Tables
  import opened Http
  import opened Middleware
  import opened Search

  const SurahCount := 114
  const MaxQueryBytes := 100
  const SearchLimit := 50

  // ---------------------------------------------------------------------------------------------
  // Payloads

  /** One row of `/surah`. */
  datatype SurahOut = SurahOut(number: int, nameAr: string, nameLatin: string, revelation: string, verses: int)

  /** One row of `/surah/:n`. */
  datatype AyahOut = AyahOut(ayah: int, arabic: string, tajweed: string, trans: string, audioUrl: string)

  /** One row of the `/stats` count query: a surah, its declared verse count, its stored ayahs. */
  datatype CountRow = CountRow(surah: int, verses: int, ayah: int)

  datatype StatsReport = StatsReport(ok: bool, surahTotal: int, ayahTotal: int, tail: int, mismatches: seq<CountRow>)

  /** What a handler puts in its JSON body. */
  datatype Payload =
    | Healthy
    | ErrorMsg(error: string)
    | SurahList(surahs: seq<SurahOut>)
    | SurahAyahs(surah: int, ayahs: seq<AyahOut>)
    | SearchResult(q: string, hits: seq<Hit>)
    | Stats(report: StatsReport)

  /** `c.JSON(code, payload)`. */
  function JsonReply(code: int, p: Payload): (r: Response<Payload>)
    ensures r.status == code && r.body == Data(p)
  {
    Response(code, map["Content-Type" := "application/json; charset=utf-8"], Data(p))
  }

  // ---------------------------------------------------------------------------------------------
  // /surah and /surah/:n

  /** `SELECT ... FROM surah ORDER BY number`. */
  function SurahListOf(db: Db): (rows: seq<SurahOut>)
    ensures |rows| == |db.surah|
    ensures forall i :: 0 <= i < |rows| ==> rows[i].number in db.surah && rows[i] == SurahOutOf(rows[i].number, db.surah[rows[i].number])
    ensures forall i, j :: 0 <= i < j < |rows| ==> rows[i].number < rows[j].number
    ensures forall n :: n in db.surah ==> exists i :: 0 <= i < |rows| && rows[i].number == n
  {
    var es := OrderedEntries(db.surah);
    var rows := MapEntries(es, SurahOutOf);
    forall i | 0 <= i < |rows|
      ensures rows[i].number == es[i].0
      ensures rows[i].number in db.surah && rows[i] == SurahOutOf(rows[i].number, db.surah[rows[i].number])
    {
      assert rows[i] == SurahOutOf(es[i].0, es[i].1);
    }
    forall n | n in db.surah ensures exists i :: 0 <= i < |rows| && rows[i].number == n {
      var i :| 0 <= i < |es| && es[i].0 == n;
      assert rows[i].number == n;
    }
    rows
  }

  function SurahOutOf(number: int, s: SurahRow): SurahOut {
    SurahOut(number, s.nameAr, s.nameLatin, s.revelation, s.versesCount)
  }

  /** The `:n` of `/surah/:n`: accepted iff `strconv.Atoi` succeeds with a value in 1..114. */
  function SurahNumber(param: string): (r: Option<int>)
    ensures r.Some? <==> Atoi(param).ok && 1 <= Atoi(param).value <= SurahCount
    ensures r.Some? ==> r.value == Atoi(param).value
  {
    var p := Atoi(param);
    if !p.ok || p.value < 1 || p.value > SurahCount then None else Some(p.value)
  }

  /** The decimal numeral of a number is accepted exactly when the number is in 1..114. */
  lemma SurahNumberOfNumeral(n: int)
    requires -(Cutoff(Int64) as int) <= n < Cutoff(Int64)
    ensures SurahNumber(Itoa(n)) == (if 1 <= n <= SurahCount then Some(n) else None)
  {
    ParseItoa(n, Int64);
  }

  /** The boundary values 0 and 115 are rejected, as is text that is not a number. */
  lemma SurahNumberRejects(x: string)
    requires x == [] || (!IsDigit(x[0]) && x[0] != '+' && x[0] != '-')
    ensures SurahNumber("0") == None && SurahNumber("115") == None
    ensures SurahNumber(x) == None
  {
    assert Itoa(0) == "0";
    assert Itoa(115) == "115" by {
      assert NatDigits(115) == NatDigits(11) + ['5'];
      assert NatDigits(11) == NatDigits(1) + ['1'];
    }
    SurahNumberOfNumeral(0);
    SurahNumberOfNumeral(115);
    ParseNonNumeric(x, Int64);
  }

  /** `Atoi` accepts a sign and leading zeros, so these spellings name a surah too. */
  lemma SurahNumberLenient()
    ensures SurahNumber("+7") == Some(7)
    ensures SurahNumber("007") == Some(7)
  {
    assert DigitRun("7") == 1;
    assert DigitRun("007") == 3;
    assert "7"[..1] == "7";
    assert "007"[..3] == "007";
    assert DigitsValue("007") == 7 by {
      assert "007"[..2] == "00";
      assert "00"[..1] == "0";
    }
  }

  /** `SELECT number AS ayah, ... FROM ayah WHERE surah = n ORDER BY number`. */
  function AyahList(db: Db, n: int): (rows: seq<AyahOut>)
    ensures |rows| == AyahCount(db, n)
    ensures forall i :: 0 <= i < |rows| ==> (n, rows[i].ayah) in db.ayah && rows[i] == AyahOutOf(rows[i].ayah, db.ayah[(n, rows[i].ayah)])
    ensures forall i, j :: 0 <= i < j < |rows| ==> rows[i].ayah < rows[j].ayah
    ensures forall j :: (n, j) in db.ayah ==> exists i :: 0 <= i < |rows| && rows[i].ayah == j
  {
    var m := AyahsOf(db, n);
    var es := OrderedEntries(m);
    var rows := MapEntries(es, AyahOutOf);
    forall i | 0 <= i < |rows|
      ensures rows[i].ayah == es[i].0
      ensures (n, rows[i].ayah) in db.ayah && rows[i] == AyahOutOf(rows[i].ayah, db.ayah[(n, rows[i].ayah)])
    {
      assert rows[i] == AyahOutOf(es[i].0, es[i].1);
    }
    forall j | (n, j) in db.ayah ensures exists i :: 0 <= i < |rows| && rows[i].ayah == j {
      assert j in m;
      var i :| 0 <= i < |es| && es[i].0 == j;
      assert rows[i].ayah == j;
    }
    rows
  }

  function AyahOutOf(number: int, a: AyahRow): AyahOut {
    AyahOut(number, a.arabic, a.tajweed, a.trans, a.audioUrl)
  }

  /** `/surah/:n`: 400 for a number outside 1..114, else the surah's ayahs in order. */
  function GetSurah(db: Db, param: string): (r: Response<Payload>)
    ensures r.status == StatusBadRequest <==> SurahNumber(param).None?
    ensures r.status == StatusOK <==> SurahNumber(param).Some?
    ensures SurahNumber(param).Some? ==> r.body == Data(SurahAyahs(SurahNumber(param).value, AyahList(db, SurahNumber(param).value)))
  {
    match SurahNumber(param)
    case None => JsonReply(StatusBadRequest, ErrorMsg("invalid surah number"))
    case Some(n) => JsonReply(StatusOK, SurahAyahs(n, AyahList(db, n)))
  }

  /** A rejected number is answered before the store is read: the reply is the same whatever the
      store holds. */
  lemma GetSurahRejectsBeforeRead(db1: Db, db2: Db, param: string)
    requires SurahNumber(param).None?
    ensures GetSurah(db1, param) == GetSurah(db2, param)
  {
  }

  // ---------------------------------------------------------------------------------------------
  // /search

  /** `/search?q=`: the trimmed query is rejected with 400 when longer than 100 bytes; otherwise
      the store is searched with limit 50. */
  function SearchHandler(engine: Engine, req: Request): (r: Response<Payload>)
    ensures var q := TrimSpace(QueryParam(req, "q"));
      && (r.status == StatusBadRequest <==> ByteLen(q) > MaxQueryBytes)
      && (ByteLen(q) <= MaxQueryBytes ==>
            match SearchAyah(engine, q, SearchLimit)
            case Ok(hits) => r == JsonReply(StatusOK, SearchResult(q, hits))
            case Err(e) => r == JsonReply(StatusInternalServerError, ErrorMsg(e)))
  {
    var q := TrimSpace(QueryParam(req, "q"));
    if ByteLen(q) > MaxQueryBytes then JsonReply(StatusBadRequest, ErrorMsg("query too long"))
    else
      match SearchAyah(engine, q, SearchLimit)
      case Err(e) => JsonReply(StatusInternalServerError, ErrorMsg(e))
      case Ok(hits) => JsonReply(StatusOK, SearchResult(q, hits))
  }

  /** An accepted search returns at most 50 hits: the engine's first matches for the normalised
      raw query. */
  lemma SearchReturnsAtMostLimit(engine: Engine, req: Request)
    requires SearchHandler(engine, req).status == StatusOK
    ensures var hits := SearchHandler(engine, req).body.payload.hits;
      var all := engine(ApiMarks, NormaliseQuery(QueryParam(req, "q")));
      && all.Ok? && |hits| <= SearchLimit && |hits| <= |all.value| && hits == all.value[..|hits|]
  {
    SearchAfterTrim(engine, QueryParam(req, "q"), SearchLimit);
  }

  function Repeat(c: char, n: nat): (s: string)
    ensures |s| == n && forall i :: 0 <= i < n ==> s[i] == c
  {
    seq(n, _ => c)
  }

  lemma ByteLenRepeat(c: char, n: nat)
    ensures ByteLen(Repeat(c, n)) == n * Utf8Width(c)
  {
    if n > 0 {
      assert Repeat(c, n)[1..] == Repeat(c, n - 1);
      ByteLenRepeat(c, n - 1);
    }
  }

  function QueryRequest(q: string): Request {
    Request(MethodGet, "/search", map["q" := q], map[])
  }

  /** The limit counts bytes of the trimmed query: 100 ASCII letters pass. */
  lemma SearchAcceptsHundredBytes(engine: Engine)
    ensures SearchHandler(engine, QueryRequest(Repeat('a', 100))).status != StatusBadRequest
  {
    TrimSpaceOfTrimmed(Repeat('a', 100));
    ByteLenRepeat('a', 100);
  }

  /** 101 ASCII letters are rejected. */
  lemma SearchRejectsHundredOneBytes(engine: Engine)
    ensures SearchHandler(engine, QueryRequest(Repeat('a', 101))).status == StatusBadRequest
  {
    TrimSpaceOfTrimmed(Repeat('a', 101));
    ByteLenRepeat('a', 101);
  }

  /** 51 two-byte Arabic letters, 102 bytes, are rejected although they are 51 characters. */
  lemma SearchCountsBytes(engine: Engine)
    ensures SearchHandler(engine, QueryRequest(Repeat('ب', 51))).status == StatusBadRequest
  {
    TrimSpaceOfTrimmed(Repeat('ب', 51));
    ByteLenRepeat('ب', 51);
  }

  // ---------------------------------------------------------------------------------------------
  // /stats

  /** The count query: every surah row in number order, with its stored ayah count. */
  function CountRows(db: Db): (rows: seq<CountRow>)
    ensures |rows| == |db.surah|
    ensures forall i :: 0 <= i < |rows| ==>
      rows[i].surah in db.surah && rows[i].verses == db.surah[rows[i].surah].versesCount && rows[i].ayah == AyahCount(db, rows[i].surah)
    ensures forall i, j :: 0 <= i < j < |rows| ==> rows[i].surah < rows[j].surah
    ensures forall n :: n in db.surah ==> exists i :: 0 <= i < |rows| && rows[i].surah == n
  {
    var es := OrderedEntries(db.surah);
    var rows := CountRowsOf(db, es);
    forall i | 0 <= i < |rows|
      ensures rows[i].surah == es[i].0
      ensures rows[i].surah in db.surah && rows[i].verses == db.surah[rows[i].surah].versesCount && rows[i].ayah == AyahCount(db, rows[i].surah)
    {
      assert rows[i] == CountRowOf(db, es[i].0, es[i].1);
    }
    forall n | n in db.surah ensures exists i :: 0 <= i < |rows| && rows[i].surah == n {
      var i :| 0 <= i < |es| && es[i].0 == n;
      assert rows[i].surah == n;
    }
    rows
  }

  /** One row of the count query: the surah, its declared verse count and its stored ayahs. */
  function CountRowOf(db: Db, n: int, s: SurahRow): CountRow {
    CountRow(n, s.versesCount, AyahCount(db, n))
  }

  function CountRowsOf(db: Db, es: seq<(int, SurahRow)>): (rows: seq<CountRow>)
    ensures |rows| == |es|
    ensures forall i :: 0 <= i < |es| ==> rows[i] == CountRowOf(db, es[i].0, es[i].1)
  {
    if es == [] then [] else [CountRowOf(db, es[0].0, es[0].1)] + CountRowsOf(db, es[1..])
  }

  predicate Consistent(r: CountRow) {
    r.verses == r.ayah
  }

  /** The rows whose declared verse count differs from their stored ayah count, in order. */
  function Mismatches(rows: seq<CountRow>): (bad: seq<CountRow>)
    ensures |bad| <= |rows|
    ensures forall i :: 0 <= i < |bad| ==> bad[i] in rows && !Consistent(bad[i])
    ensures (forall i :: 0 <= i < |rows| ==> Consistent(rows[i])) ==> bad == []
    decreases |rows|
  {
    if rows == [] then []
    else
      var last := rows[|rows| - 1];
      Mismatches(rows[..|rows| - 1]) + (if Consistent(last) then [] else [last])
  }

  /** A row is listed iff it is inconsistent. */
  lemma {:induction false} MismatchesMembers(rows: seq<CountRow>)
    ensures forall r :: r in Mismatches(rows) <==> r in rows && !Consistent(r)
    decreases |rows|
  {
    if rows != [] {
      var init := rows[..|rows| - 1];
      MismatchesMembers(init);
      assert rows == init + [rows[|rows| - 1]];
    }
  }

  /** Listing keeps the rows' order: a strictly increasing list of surahs stays strictly
      increasing. */
  lemma {:induction false} MismatchesOrdered(rows: seq<CountRow>)
    requires forall i, j :: 0 <= i < j < |rows| ==> rows[i].surah < rows[j].surah
    ensures forall i, j :: 0 <= i < j < |Mismatches(rows)| ==> Mismatches(rows)[i].surah < Mismatches(rows)[j].surah
    decreases |rows|
  {
    if rows != [] {
      var init := rows[..|rows| - 1];
      MismatchesOrdered(init);
      MismatchesMembers(init);
      var bad := Mismatches(rows);
      var prev := Mismatches(init);
      forall i, j | 0 <= i < j < |bad| ensures bad[i].surah < bad[j].surah {
        assert bad == prev + (if Consistent(rows[|rows| - 1]) then [] else [rows[|rows| - 1]]);
        if j >= |prev| {
          assert bad[j] == rows[|rows| - 1];
          assert bad[i] == prev[i];
          assert prev[i] in prev;
          assert prev[i] in init;
          var k :| 0 <= k < |init| && init[k] == prev[i];
          assert rows[k] == init[k];
          assert rows[k].surah < rows[|rows| - 1].surah;
        } else {
          assert bad[i] == prev[i] && bad[j] == prev[j];
          assert prev[i].surah < prev[j].surah;
        }
      }
    }
  }

  /** The report: ok iff there are 114 surah rows and none is inconsistent. */
  function StatsOf(db: Db): (r: StatsReport)
    ensures r.mismatches == Mismatches(CountRows(db))
    ensures r.ok <==> r.surahTotal == SurahCount && r.mismatches == []
  {
    var bad := Mismatches(CountRows(db));
    StatsReport(|db.surah| == SurahCount && |bad| == 0, |db.surah|, |db.ayah|, AyahCountBetween(db, 94, 114), bad)
  }

  /** No row is listed iff every row is consistent. */
  lemma MismatchesEmpty(rows: seq<CountRow>)
    ensures Mismatches(rows) == [] <==> forall i :: 0 <= i < |rows| ==> Consistent(rows[i])
  {
    MismatchesMembers(rows);
    if Mismatches(rows) != [] {
      assert Mismatches(rows)[0] in Mismatches(rows);
    } else {
      forall i | 0 <= i < |rows| ensures Consistent(rows[i]) {
        assert rows[i] in rows;
      }
    }
  }

  /** `/stats` is ok exactly when the store holds 114 surahs and each one's declared verse count
      equals the number of its stored ayahs. */
  lemma StatsOkIff(db: Db)
    ensures StatsOf(db).ok <==>
      |db.surah| == SurahCount && forall n :: n in db.surah ==> db.surah[n].versesCount == AyahCount(db, n)
  {
    MismatchesEmpty(CountRows(db));
    RowsConsistentIff(db, CountRows(db));
  }

  /** Every count row is consistent iff every stored surah's declared verse count matches its
      stored ayahs. */
  lemma RowsConsistentIff(db: Db, rows: seq<CountRow>)
    requires forall i :: 0 <= i < |rows| ==>
      rows[i].surah in db.surah && rows[i].verses == db.surah[rows[i].surah].versesCount && rows[i].ayah == AyahCount(db, rows[i].surah)
    requires forall n :: n in db.surah ==> exists i :: 0 <= i < |rows| && rows[i].surah == n
    ensures (forall i :: 0 <= i < |rows| ==> Consistent(rows[i])) <==>
      forall n :: n in db.surah ==> db.surah[n].versesCount == AyahCount(db, n)
  {
    if forall i :: 0 <= i < |rows| ==> Consistent(rows[i]) {
      forall n | n in db.surah ensures db.surah[n].versesCount == AyahCount(db, n) {
        var i :| 0 <= i < |rows| && rows[i].surah == n;
        assert Consistent(rows[i]);
      }
    } else {
      var i :| 0 <= i < |rows| && !Consistent(rows[i]);
      var n := rows[i].surah;
      assert n in db.surah && db.surah[n].versesCount != AyahCount(db, n);
    }
  }

  function StatsHandler(db: Db): (r: Response<Payload>)
    ensures r.status == StatusOK && r.body == Data(Stats(StatsOf(db)))
  {
    JsonReply(StatusOK, Stats(StatsOf(db)))
  }

  // ---------------------------------------------------------------------------------------------
  // Router and middleware

  /** gin's answer for a route it does not have. */
  function NotFound(): (r: Response<Payload>)
    ensures r.status == 404 && r.body.Text?
  {
    Response(404, map["Content-Type" := "text/plain"], Text("404 page not found"))
  }

  /** The `:n` segment when `path` is `/surah/<n>` with a non-empty `n` free of slashes. */
  function SurahParam(path: string): (r: Option<string>)
    ensures r.Some? ==> path == "/surah/" + r.value && r.value != [] && '/' !in r.value
    ensures HasPrefix(path, "/surah/") && |path| > |"/surah/"| && '/' !in path[|"/surah/"|..] ==> r.Some?
  {
    if HasPrefix(path, "/surah/") && |path| > |"/surah/"| && '/' !in path[|"/surah/"|..] then
      assert path == "/surah/" + path[|"/surah/"|..];
      Some(path[|"/surah/"|..])
    else None
  }

  /** The gin router: GET routes only; everything else is 404. */
  function Router(db: Db, engine: Engine, req: Request): (r: Response<Payload>)
    ensures req.verb != MethodGet ==> r.status == 404
    ensures req.verb == MethodGet && SurahParam(req.path).Some? ==> r == GetSurah(db, SurahParam(req.path).value)
    ensures req.verb == MethodGet && req.path == "/search" ==> r == SearchHandler(engine, req)
    ensures req.verb == MethodGet && req.path == "/stats" ==> r == StatsHandler(db)
    ensures req.verb == MethodGet && req.path == "/healthz" ==> r.status == StatusOK && r.body == Data(Healthy)
    ensures req.verb == MethodGet && req.path == "/surah" ==> r.status == StatusOK && r.body == Data(SurahList(SurahListOf(db)))
    ensures req.verb == MethodGet && SurahParam(req.path).None? && req.path !in ["/healthz", "/surah", "/search", "/stats"] ==> r.status == 404
  {
    if req.verb != MethodGet then NotFound()
    else match SurahParam(req.path)
      case Some(n) =>
        assert req.path[1] == 's' && |req.path| > |"/surah"|;
        GetSurah(db, n)
      case None =>
        if req.path == "/healthz" then JsonReply(StatusOK, Healthy)
        else if req.path == "/surah" then JsonReply(StatusOK, SurahList(SurahListOf(db)))
        else if req.path == "/search" then SearchHandler(engine, req)
        else if req.path == "/stats" then StatsHandler(db)
        else NotFound()
  }

  /** The served handler, `RateLimit(CORS(router))`, for one request. */
  function Serve(l: Limiter, origins: string, db: Db, engine: Engine, req: Request): (r: (Limiter, Response<Payload>))
    ensures r.0 == Admission(l).0
    ensures Admission(l).1 == Deny ==> r.1 == Error("rate limit", StatusTooManyRequests)
    ensures Admission(l).1 == Admit && req.verb == MethodOptions ==> r.1.status == StatusNoContent && r.1.body == NoBody
    ensures Admission(l).1 == Admit && req.verb != MethodOptions ==>
      r.1.status == Router(db, engine, req).status && r.1.body == Router(db, engine, req).body
    ensures Admission(l).1 == Admit ==> "Access-Control-Allow-Origin" in r.1.headers
  {
    RateLimit(l, (q: Request) => Cors(origins, (q2: Request) => Router(db, engine, q2), q), req)
  }

  /** A denied request, preflight or not, gets a bare 429: it never reaches CORS, so the reply
      carries no CORS headers, and it never reaches the router. */
  lemma DeniedBeforeCors(l: Limiter, origins: string, db: Db, engine: Engine, req: Request)
    requires Admission(l).1 == Deny
    ensures Serve(l, origins, db, engine, req).1 == Error("rate limit", StatusTooManyRequests)
    ensures "Access-Control-Allow-Origin" !in Serve(l, origins, db, engine, req).1.headers
  {
  }

  /** A preflight is answered by CORS after the limiter: it takes a token like any request. */
  lemma PreflightTakesToken(l: Limiter, origins: string, db: Db, engine: Engine, req: Request)
    requires req.verb == MethodOptions && Available(l) > 0
    ensures Serve(l, origins, db, engine, req).1.status == StatusNoContent
    ensures Serve(l, origins, db, engine, req).0.tokens == Available(l) - 1
  {
  }

  /** An admitted request other than a preflight gets the router's reply under the CORS
      headers. */
  lemma AdmittedReachesRouter(l: Limiter, origins: string, db: Db, engine: Engine, req: Request)
    requires req.verb != MethodOptions && Available(l) > 0
    ensures var r := Serve(l, origins, db, engine, req).1;
      var inner := Router(db, engine, req);
      r.status == inner.status && r.body == inner.body && r.headers == CorsHeaders(origins) + inner.headers
  {
  }
}

=== FILE: config.dfy ===
/** Start-up configuration of the three servers and the verifier: environment variables with
    their fallbacks, and the address a `-selfcheck` run probes. */
module Config {
  import opened Text

  /** The process environment; an unset variable reads as "". */
  type Env = map<string, string>

  function Getenv(env: Env, name: string): string {
    if name in env then env[name] else ""
  }

  /** `if v == "" { v = fallback }`. */
  function OrElse(v: string, fallback: string): (r: string)
    ensures r == v || r == fallback
    ensures r == [] ==> v == [] && fallback == []
  {
    if v == [] then fallback else v
  }

  const DefaultApiBind: string := ":8080"
  const DefaultWebBind: string := ":8090"
  const DefaultDbPath: string := "quran.db"

  /** `v := os.Getenv(name); if v == "" { v = fallback }`, the pattern every binary reads its
      settings with. */
  function SettingOr(env: Env, name: string, fallback: string): (v: string)
    ensures fallback != [] ==> v != []
    ensures Getenv(env, name) != [] ==> v == Getenv(env, name)
    ensures Getenv(env, name) == [] ==> v == fallback
  {
    OrElse(Getenv(env, name), fallback)
  }

  /** The database file every binary opens: `QURAN_DB_PATH`, else `quran.db`. */
  function DbPath(env: Env): (p: string)
    ensures p != []
    ensures Getenv(env, "QURAN_DB_PATH") != [] ==> p == Getenv(env, "QURAN_DB_PATH")
    ensures Getenv(env, "QURAN_DB_PATH") == [] ==> p == DefaultDbPath
  {
    SettingOr(env, "QURAN_DB_PATH", DefaultDbPath)
  }

  /** quran-api's listen address: `QURAN_BIND`, else `:8080`. */
  function ApiBind(env: Env): (b: string)
    ensures b != []
    ensures Getenv(env, "QURAN_BIND") != [] ==> b == Getenv(env, "QURAN_BIND")
    ensures Getenv(env, "QURAN_BIND") == [] ==> b == DefaultApiBind
  {
    SettingOr(env, "QURAN_BIND", DefaultApiBind)
  }

  /** quran-web's listen address: `QURAN_BIND`, else `:8090`. */
  function WebBind(env: Env): (b: string)
    ensures b != []
    ensures Getenv(env, "QURAN_BIND") != [] ==> b == Getenv(env, "QURAN_BIND")
    ensures Getenv(env, "QURAN_BIND") == [] ==> b == DefaultWebBind
  {
    SettingOr(env, "QURAN_BIND", DefaultWebBind)
  }

  /** quran-all's API address: `QURAN_API_BIND`, else `QURAN_BIND`, else `:8080`. */
  function AllApiBind(env: Env): (b: string)
    ensures b != []
    ensures Getenv(env, "QURAN_API_BIND") != [] ==> b == Getenv(env, "QURAN_API_BIND")
    ensures Getenv(env, "QURAN_API_BIND") == [] ==> b == SettingOr(env, "QURAN_BIND", DefaultApiBind)
  {
    OrElse(OrElse(Getenv(env, "QURAN_API_BIND"), Getenv(env, "QURAN_BIND")), DefaultApiBind)
  }

  /** quran-all's web address: `QURAN_WEB_BIND`, else `:8090`. */
  function AllWebBind(env: Env): (b: string)
    ensures b != []
    ensures Getenv(env, "QURAN_WEB_BIND") != [] ==> b == Getenv(env, "QURAN_WEB_BIND")
    ensures Getenv(env, "QURAN_WEB_BIND") == [] ==> b == DefaultWebBind
  {
    SettingOr(env, "QURAN_WEB_BIND", DefaultWebBind)
  }

  /** The first non-empty value of a fallback chain, or "" when all are empty. */
  function FirstSet(vs: seq<string>): (r: string)
    ensures r == [] <==> forall i :: 0 <= i < |vs| ==> vs[i] == []
    ensures r != [] ==> exists i :: 0 <= i < |vs| && vs[i] == r && forall k :: 0 <= k < i ==> vs[k] == []
  {
    if vs == [] then []
    else if vs[0] != [] then vs[0]
    else
      var r := FirstSet(vs[1..]);
      assert forall i :: 1 <= i < |vs| ==> vs[i] == vs[1..][i - 1];
      r
  }

  /** quran-all's API address is the first set value of the chain
      `QURAN_API_BIND`, `QURAN_BIND`, `:8080`. */
  lemma AllApiBindChain(env: Env)
    ensures AllApiBind(env) == FirstSet([Getenv(env, "QURAN_API_BIND"), Getenv(env, "QURAN_BIND"), DefaultApiBind])
  {
    var vs := [Getenv(env, "QURAN_API_BIND"), Getenv(env, "QURAN_BIND"), DefaultApiBind];
    assert vs[1..] == [Getenv(env, "QURAN_BIND"), DefaultApiBind];
    assert vs[1..][1..] == [DefaultApiBind];
    assert FirstSet([DefaultApiBind]) == DefaultApiBind;
    if vs[0] == [] {
      assert FirstSet(vs) == FirstSet(vs[1..]);
    }
  }

  /** Without `QURAN_API_BIND`, quran-all serves its API where quran-api would. */
  lemma AllApiBindAsApi(env: Env)
    requires Getenv(env, "QURAN_API_BIND") == []
    ensures AllApiBind(env) == ApiBind(env)
  {
  }

  // ---------------------------------------------------------------------------------------------
  // Self-check

  const Loopback: string := "127.0.0.1"

  /** The address `-selfcheck` dials for a listen address: a port-only address and the IPv4 and
      IPv6 wildcard hosts are rewritten to the IPv4 loopback host, checked in that order; any
      other address is dialled as is. */
  function LoopbackAddr(bind: string): (addr: string)
    ensures HasPrefix(bind, ":") ==> addr == Loopback + bind
    ensures !HasPrefix(bind, ":") && HasPrefix(bind, "0.0.0.0:") ==> addr == Loopback + ":" + bind[|"0.0.0.0:"|..]
    ensures !HasPrefix(bind, ":") && HasPrefix(bind, "[::]:") ==> addr == Loopback + ":" + bind[|"[::]:"|..]
    ensures !HasPrefix(bind, ":") && !HasPrefix(bind, "0.0.0.0:") && !HasPrefix(bind, "[::]:") ==> addr == bind
  {
    if HasPrefix(bind, ":") then Loopback + bind
    else if HasPrefix(bind, "0.0.0.0:") then Loopback + ":" + TrimPrefix(bind, "0.0.0.0:")
    else if HasPrefix(bind, "[::]:") then Loopback + ":" + TrimPrefix(bind, "[::]:")
    else bind
  }

  /** `http://<addr>/healthz`. */
  function HealthUrl(bind: string): (u: string)
    ensures HasPrefix(u, "http://") && |u| >= |"http://"| + |"/healthz"|
    ensures u[|u| - |"/healthz"|..] == "/healthz"
    ensures u[|"http://"|..|u| - |"/healthz"|] == LoopbackAddr(bind)
    ensures PortOf(u[|"http://"|..|u| - |"/healthz"|]) == PortOf(bind)
  {
    var a := LoopbackAddr(bind);
    var u := "http://" + a + "/healthz";
    LoopbackKeepsPort(bind);
    assert u[|"http://"|..|u| - |"/healthz"|] == a;
    u
  }

  /** The port: the text after the last colon, or the whole text when there is none. */
  function PortOf(hostport: string): string
  {
    if hostport == [] || hostport[|hostport| - 1] == ':' then []
    else PortOf(hostport[..|hostport| - 1]) + [hostport[|hostport| - 1]]
  }

  /** The port is a colon-free suffix of the address, preceded by a colon when shorter. */
  lemma {:induction false} PortOfShape(hostport: string)
    ensures ':' !in PortOf(hostport)
    ensures |PortOf(hostport)| <= |hostport| && PortOf(hostport) == hostport[|hostport| - |PortOf(hostport)|..]
    ensures |PortOf(hostport)| < |hostport| ==> hostport[|hostport| - |PortOf(hostport)| - 1] == ':'
    decreases |hostport|
  {
    if hostport != [] && hostport[|hostport| - 1] != ':' {
      var init := hostport[..|hostport| - 1];
      PortOfShape(init);
      var p := PortOf(init);
      assert PortOf(hostport) == p + [hostport[|hostport| - 1]];
      assert hostport == init + [hostport[|hostport| - 1]];
      if |p| < |init| {
        assert hostport[|hostport| - |PortOf(hostport)| - 1] == init[|init| - |p| - 1];
      }
    }
  }

  lemma {:induction false} PortOfSuffix(a: string, b: string)
    requires ':' in b
    ensures PortOf(a + b) == PortOf(b)
    decreases |b|
  {
    var s := a + b;
    var n := |b| - 1;
    assert s[|s| - 1] == b[n];
    if b[n] != ':' {
      assert s[..|s| - 1] == a + b[..n];
      assert ':' in b[..n] by {
        var j :| 0 <= j < |b| && b[j] == ':';
        assert b[..n][j] == ':';
      }
      PortOfSuffix(a, b[..n]);
    }
  }

  /** The port after a host and a colon is the port after the colon alone. */
  lemma PortAfterHost(host: string, rest: string)
    ensures PortOf(host + ":" + rest) == PortOf(":" + rest)
  {
    assert host + ":" + rest == host + (":" + rest);
    assert (":" + rest)[0] == ':';
    PortOfSuffix(host, ":" + rest);
  }

  lemma SplitAtPrefix(s: string, p: string)
    requires HasPrefix(s, p)
    ensures s == p + s[|p|..]
  {
  }

  /** The rewrite only ever changes the host: the port dialled is the port bound. */
  lemma LoopbackKeepsPort(bind: string)
    ensures PortOf(LoopbackAddr(bind)) == PortOf(bind)
  {
    if HasPrefix(bind, ":") {
      assert bind[0] == ':';
      PortOfSuffix(Loopback, bind);
    } else if HasPrefix(bind, "0.0.0.0:") {
      var rest := bind[|"0.0.0.0:"|..];
      SplitAtPrefix(bind, "0.0.0.0:");
      assert bind == "0.0.0.0" + ":" + rest;
      PortAfterHost("0.0.0.0", rest);
      PortAfterHost(Loopback, rest);
    } else if HasPrefix(bind, "[::]:") {
      var rest := bind[|"[::]:"|..];
      SplitAtPrefix(bind, "[::]:");
      assert bind == "[::]" + ":" + rest;
      PortAfterHost("[::]", rest);
      PortAfterHost(Loopback, rest);
    }
  }

  /** Every wildcard form ends up on the loopback host, and a rewritten address is dialled as
      is: the rewrite is idempotent. */
  lemma LoopbackIdempotent(bind: string)
    ensures HasPrefix(bind, ":") || HasPrefix(bind, "0.0.0.0:") || HasPrefix(bind, "[::]:") ==>
      HasPrefix(LoopbackAddr(bind), Loopback + ":")
    ensures LoopbackAddr(LoopbackAddr(bind)) == LoopbackAddr(bind)
  {
    var a := LoopbackAddr(bind);
    if HasPrefix(bind, ":") || HasPrefix(bind, "0.0.0.0:") || HasPrefix(bind, "[::]:") {
      assert a[..|Loopback| + 1] == Loopback + ":";
      assert a[0] == '1';
      assert !HasPrefix(a, "0.0.0.0:") by { assert a[1] != "0.0.0.0:"[1]; }
      assert !HasPrefix(a, "[::]:") by { assert a[0] != '['; }
    }
  }

  /** The default addresses are probed on the loopback host. */
  lemma DefaultHealthUrls()
    ensures HealthUrl(DefaultApiBind) == "http://127.0.0.1:8080/healthz"
    ensures HealthUrl(DefaultWebBind) == "http://127.0.0.1:8090/healthz"
  {
    PortOnlyHealthUrl(DefaultApiBind);
    PortOnlyHealthUrl(DefaultWebBind);
  }

  /** A bare `:port` bind is checked on the loopback host. */
  lemma PortOnlyHealthUrl(bind: string)
    requires HasPrefix(bind, ":")
    ensures HealthUrl(bind) == "http://127.0.0.1" + bind + "/healthz"
  {
    var a := LoopbackAddr(bind);
    assert a == Loopback + bind;
    assert "http://" + Loopback == "http://127.0.0.1";
    assert HealthUrl(bind) == "http://" + a + "/healthz";
  }

  lemma FirstCharDiffers(s: string, p: string)
    requires s != [] && p != [] && s[0] != p[0]
    ensures !HasPrefix(s, p)
  {
  }

  /** The IPv4 wildcard host is rewritten to the loopback host, keeping the port. */
  lemma Ipv4WildcardAddr()
    ensures LoopbackAddr("0.0.0.0:9000") == "127.0.0.1:9000"
  {
    var b := "0.0.0.0:9000";
    FirstCharDiffers(b, ":");
    assert b[..8] == "0.0.0.0:";
    assert b[8..] == "9000";
  }

  /** The IPv4 wildcard host is probed on the loopback host. */
  lemma Ipv4WildcardHealthUrl()
    ensures HealthUrl("0.0.0.0:9000") == "http://127.0.0.1:9000/healthz"
  {
    Ipv4WildcardAddr();
  }

  /** The IPv6 wildcard host is rewritten to the IPv4 loopback host, keeping the port. */
  lemma Ipv6WildcardAddr()
    ensures LoopbackAddr("[::]:9000") == "127.0.0.1:9000"
  {
    var b := "[::]:9000";
    FirstCharDiffers(b, ":");
    FirstCharDiffers(b, "0.0.0.0:");
    assert b[..5] == "[::]:";
    assert b[5..] == "9000";
  }

  /** The IPv6 wildcard host is probed on the IPv4 loopback host. */
  lemma Ipv6WildcardHealthUrl()
    ensures HealthUrl("[::]:9000") == "http://127.0.0.1:9000/healthz"
  {
    Ipv6WildcardAddr();
  }
}

=== FILE: fetch.dfy ===
/** The source client: where each quranjson document lives, how a GET becomes a decoded document
    or an error, and the derived audio links. The network itself is a parameter (`Web`). */
module Fetch {
  import opened Wrappers
  import opened Json
  import opened Numbers
  import opened Text

  const RawBase: string := "https://raw.githubusercontent.com/semarketir/quranjson/master/source"

  /** What one `http.Get` of a URL produced: no connection, or a status with a body that is
      well-formed JSON (`Some`) or not (`None`). */
  datatype Reply = Unreachable | Answered(status: int, body: Option<Json>)

  /** The remote host, as the reply it gives for each URL. */
  type Web = string -> Reply

  /** Why a fetch failed. The transport error and `get`'s status error name the URL; the
      decoder's error (malformed JSON, an empty body, a value of the wrong shape) does not. */
  datatype FetchError =
    | NetworkError(url: string)
    | StatusError(url: string, status: int)
    | DecodeError

  /** The host answered the URL with status 200, so a failure can only come from decoding. */
  predicate Answered200(web: Web, url: string) {
    web(url).Answered? && web(url).status == 200
  }

  /** The URL of a path under the corpus root; the path reads back from it. */
  function RequestUrl(path: string): (u: string)
    ensures HasPrefix(u, RawBase + "/")
    ensures u[|RawBase| + 1..] == path
  {
    var u := RawBase + "/" + path;
    assert u[..|RawBase| + 1] == RawBase + "/";
    u
  }

  /** `get`: one GET of `RawBase/path`. Any status but 200 is an error and the body is then not
      decoded; a 200 whose body is not JSON is a decode error. */
  function Get(web: Web, path: string): (r: Result<Json, FetchError>)
    ensures r.Err? && !r.error.DecodeError? ==> r.error.url == RawBase + "/" + path
    ensures r.Err? ==> (r.error.DecodeError? <==> Answered200(web, RequestUrl(path)))
    ensures web(RequestUrl(path)).Unreachable? ==> r == Err(NetworkError(RequestUrl(path)))
    ensures r.Ok? <==>
      && web(RequestUrl(path)).Answered?
      && web(RequestUrl(path)).status == 200
      && web(RequestUrl(path)).body.Some?
    ensures r.Ok? ==> r.value == web(RequestUrl(path)).body.value
    ensures web(RequestUrl(path)).Answered? && web(RequestUrl(path)).status != 200 ==>
      r == Err(StatusError(RequestUrl(path), web(RequestUrl(path)).status))
  {
    var url := RequestUrl(path);
    match web(url)
    case Unreachable => Err(NetworkError(url))
    case Answered(status, body) =>
      if status != 200 then Err(StatusError(url, status))
      else if body.None? then Err(DecodeError)
      else Ok(body.value)
  }

  /** `get` into a `map[string]any`. */
  function GetObject(web: Web, path: string): (r: Result<Object, FetchError>)
    ensures r.Ok? <==> Get(web, path).Ok? && DecodeObject(Get(web, path).value).Some?
    ensures r.Ok? ==> r.value == DecodeObject(Get(web, path).value).value
    ensures r.Err? && !r.error.DecodeError? ==> r.error.url == RequestUrl(path)
    ensures r.Err? ==> (r.error.DecodeError? <==> Answered200(web, RequestUrl(path)))
    ensures Get(web, path).Err? ==> r == Err(Get(web, path).error)
  {
    match Get(web, path)
    case Err(e) => Err(e)
    case Ok(j) =>
      match DecodeObject(j)
      case None => Err(DecodeError)
      case Some(o) => Ok(o)
  }

  const IndexPath: string := "surah.json"

  /** The Arabic text of surah `n` lives at `surah/surah_<n>.json`, `n` unpadded: the path gives
      the surah back, so distinct surahs are fetched from distinct paths. */
  function ArabicPath(n: int): (p: string)
    ensures -(Cutoff(Int64) as int) <= n < Cutoff(Int64) ==> ArabicPathSurah(p) == Some(n)
  {
    var p := "surah/surah_" + Itoa(n) + ".json";
    if -(Cutoff(Int64) as int) <= n < Cutoff(Int64) then
      NumberBetweenRoundTrip("surah/surah_", ".json", n);
      p
    else p
  }

  /** The tajweed text of surah `n` lives at `tajweed/surah_<n>.json`, which gives the surah back. */
  function TajweedPath(n: int): (p: string)
    ensures -(Cutoff(Int64) as int) <= n < Cutoff(Int64) ==> NumberBetween(p, "tajweed/surah_", ".json") == Some(n)
  {
    var p := "tajweed/surah_" + Itoa(n) + ".json";
    if -(Cutoff(Int64) as int) <= n < Cutoff(Int64) then
      NumberBetweenRoundTrip("tajweed/surah_", ".json", n);
      p
    else p
  }

  /** A translation path names its language and surah unambiguously, for any language code
      without a slash. */
  function TranslationPath(lang: string, n: int): (p: string)
    ensures '/' !in lang && -(Cutoff(Int64) as int) <= n < Cutoff(Int64) ==>
      TranslationPathParts(p) == Some((lang, n))
  {
    var tail := lang + "_translation_" + Itoa(n) + ".json";
    var p := "translation/" + (lang + "/" + tail);
    if '/' !in lang && -(Cutoff(Int64) as int) <= n < Cutoff(Int64) then
      NumberBetweenRoundTrip(lang + "_translation_", ".json", n);
      TranslationPathSplits(lang, tail);
      p
    else p
  }

  /** `FetchSurahIndex`: the surah catalogue as a list of objects. */
  function FetchSurahIndex(web: Web): (r: Result<seq<Object>, FetchError>)
    ensures r.Err? && !r.error.DecodeError? ==> r.error.url == RequestUrl(IndexPath)
    ensures r.Err? ==> (r.error.DecodeError? <==> Answered200(web, RequestUrl(IndexPath)))
    ensures r.Ok? <==> Get(web, IndexPath).Ok? && DecodeObjects(Get(web, IndexPath).value).Some?
    ensures r.Ok? ==> r.value == DecodeObjects(Get(web, IndexPath).value).value
    ensures Get(web, IndexPath).Err? ==> r == Err(Get(web, IndexPath).error)
  {
    match Get(web, IndexPath)
    case Err(e) => Err(e)
    case Ok(j) =>
      match DecodeObjects(j)
      case None => Err(DecodeError)
      case Some(os) => Ok(os)
  }

  /** The object the remote host serves at a URL: a 200 reply whose JSON body is an object or
      null. */
  function ServedObject(web: Web, url: string): Option<Object> {
    var reply := web(url);
    if reply.Answered? && reply.status == 200 && reply.body.Some? then DecodeObject(reply.body.value) else None
  }

  /** `FetchArabicSurah(n)`: the object served at surah `n`'s Arabic path, or an error; a
      transport or status error names that URL. */
  function FetchArabicSurah(web: Web, n: int): (r: Result<Object, FetchError>)
    ensures r.Ok? <==> ServedObject(web, RequestUrl(ArabicPath(n))).Some?
    ensures r.Ok? ==> r.value == ServedObject(web, RequestUrl(ArabicPath(n))).value
    ensures r.Err? && !r.error.DecodeError? ==> r.error.url == RequestUrl(ArabicPath(n))
    ensures r.Err? ==> (r.error.DecodeError? <==> Answered200(web, RequestUrl(ArabicPath(n))))
  {
    GetObject(web, ArabicPath(n))
  }

  /** `FetchTajweed(n)`: the object served at surah `n`'s tajweed path, or an error; a
      transport or status error names that URL. */
  function FetchTajweed(web: Web, n: int): (r: Result<Object, FetchError>)
    ensures r.Ok? <==> ServedObject(web, RequestUrl(TajweedPath(n))).Some?
    ensures r.Ok? ==> r.value == ServedObject(web, RequestUrl(TajweedPath(n))).value
    ensures r.Err? && !r.error.DecodeError? ==> r.error.url == RequestUrl(TajweedPath(n))
    ensures r.Err? ==> (r.error.DecodeError? <==> Answered200(web, RequestUrl(TajweedPath(n))))
  {
    GetObject(web, TajweedPath(n))
  }

  /** `FetchTranslation(lang, n)`: the object served at the translation path, or an error; a
      transport or status error names that URL. */
  function FetchTranslation(web: Web, lang: string, n: int): (r: Result<Object, FetchError>)
    ensures r.Ok? <==> ServedObject(web, RequestUrl(TranslationPath(lang, n))).Some?
    ensures r.Ok? ==> r.value == ServedObject(web, RequestUrl(TranslationPath(lang, n))).value
    ensures r.Err? && !r.error.DecodeError? ==> r.error.url == RequestUrl(TranslationPath(lang, n))
    ensures r.Err? ==> (r.error.DecodeError? <==> Answered200(web, RequestUrl(TranslationPath(lang, n))))
  {
    GetObject(web, TranslationPath(lang, n))
  }

  /** The number in a path of the form `<prefix><decimal><suffix>`, if there is one. */
  function NumberBetween(path: string, prefix: string, suffix: string): Option<int> {
    if |prefix| + |suffix| <= |path| && HasPrefix(path, prefix) && path[|path| - |suffix|..] == suffix then
      var p := Atoi(path[|prefix|..|path| - |suffix|]);
      if p.ok then Some(p.value) else None
    else None
  }

  /** The surah a `surah/surah_<n>.json` path names. */
  function ArabicPathSurah(path: string): Option<int> {
    NumberBetween(path, "surah/surah_", ".json")
  }

  lemma NumberBetweenRoundTrip(prefix: string, suffix: string, n: int)
    requires -(Cutoff(Int64) as int) <= n < Cutoff(Int64)
    ensures NumberBetween(prefix + Itoa(n) + suffix, prefix, suffix) == Some(n)
  {
    var path := prefix + Itoa(n) + suffix;
    assert path[|path| - |suffix|..] == suffix;
    assert path[..|prefix|] == prefix;
    assert path[|prefix|..|path| - |suffix|] == Itoa(n);
    ParseItoa(n, Int64);
  }

  lemma ArabicPathUnpadded()
    ensures ArabicPath(1) == "surah/surah_1.json"
    ensures ArabicPath(114) == "surah/surah_114.json"
  {
    Itoa114();
  }

  lemma Itoa114()
    ensures Itoa(1) == "1" && Itoa(114) == "114"
  {
    assert NatDigits(114) == NatDigits(11) + ['4'];
    assert NatDigits(11) == NatDigits(1) + ['1'];
  }

  /** The language and surah named by a `translation/<lang>/<lang>_translation_<n>.json` path. */
  function TranslationPathParts(path: string): Option<(string, int)> {
    if HasPrefix(path, "translation/") then
      var rest := path[|"translation/"|..];
      var lang := BeforeFirst(rest, '/');
      if |lang| < |rest| then
        var n := NumberBetween(rest[|lang| + 1..], lang + "_translation_", ".json");
        if n.Some? then Some((lang, n.value)) else None
      else None
    else None
  }

  lemma TranslationPathSplits(lang: string, tail: string)
    requires '/' !in lang
    ensures TranslationPathParts("translation/" + (lang + "/" + tail)) ==
      var n := NumberBetween(tail, lang + "_translation_", ".json");
      if n.Some? then Some((lang, n.value)) else None
  {
    var rest := lang + "/" + tail;
    var path := "translation/" + rest;
    assert path[..|"translation/"|] == "translation/";
    assert path[|"translation/"|..] == rest;
    BeforeFirstStops(lang, '/', tail);
    assert rest[|lang| + 1..] == tail;
  }

  const AudioPrefix: string := RawBase + "/audio/"

  /** `AudioURL(surah, ayah)`: `RawBase/audio/<surah>/<ayah>.mp3`, both numbers `%03d`. Every
      link of a surah and ayah numbered 0..999 carries both numbers zero-padded to three digits,
      so the link gives them back. */
  function AudioUrl(surah: int, ayah: int): (url: string)
    ensures 0 <= surah < 1000 && 0 <= ayah < 1000 ==> AudioUrlParts(url) == Some((surah, ayah))
  {
    var url := AudioPrefix + Pad3(surah) + "/" + Pad3(ayah) + ".mp3";
    if 0 <= surah < 1000 && 0 <= ayah < 1000 then
      AudioUrlReadsBack(surah, ayah, url);
      url
    else url
  }

  /** Reads the surah and ayah back out of an audio link with three-digit fields. */
  function AudioUrlParts(url: string): Option<(int, int)> {
    var p := |AudioPrefix|;
    if |url| == p + 11 && HasPrefix(url, AudioPrefix) && url[p + 3] == '/' && url[p + 7..] == ".mp3"
       && AllDigits(url[p..p + 3]) && AllDigits(url[p + 4..p + 7])
    then Some((DigitsValue(url[p..p + 3]), DigitsValue(url[p + 4..p + 7])))
    else None
  }

  lemma AudioUrlReadsBack(surah: int, ayah: int, url: string)
    requires 0 <= surah < 1000 && 0 <= ayah < 1000
    requires url == AudioPrefix + Pad3(surah) + "/" + Pad3(ayah) + ".mp3"
    ensures AudioUrlParts(url) == Some((surah, ayah))
  {
    var p := |AudioPrefix|;
    assert url[..p] == AudioPrefix;
    assert url[p..p + 3] == Pad3(surah);
    assert url[p + 3] == '/';
    assert url[p + 4..p + 7] == Pad3(ayah);
    assert url[p + 7..] == ".mp3";
  }

  /** Distinct (surah, ayah) pairs of the corpus get distinct audio links. */
  lemma AudioUrlInjective(s1: int, a1: int, s2: int, a2: int)
    requires 1 <= s1 <= 114 && 1 <= s2 <= 114
    requires 1 <= a1 <= 999 && 1 <= a2 <= 999
    requires AudioUrl(s1, a1) == AudioUrl(s2, a2)
    ensures s1 == s2 && a1 == a2
  {
    assert AudioUrlParts(AudioUrl(s1, a1)) == Some((s1, a1));
  }
}

=== FILE: http.dfy ===
/** The slice of `net/http` the handlers and middleware touch: requests, responses with a typed
    payload, and `http.Error`. */
module Http {
  /** A request: method (verb), URL path, the first value of each query parameter, and headers. */
  datatype Request = Request(verb: string, path: string, query: map<string, string>, headers: map<string, string>)

  /** A response body: nothing, plain text, or a structured payload the handler serialises. */
  datatype Body<P> = NoBody | Text(text: string) | Data(payload: P)

  datatype Response<P> = Response(status: int, headers: map<string, string>, body: Body<P>)

  /** A handler answers every request; any store or engine it reads is bound in already. */
  type Handler<P> = Request -> Response<P>

  const StatusOK := 200
  const StatusNoContent := 204
  const StatusBadRequest := 400
  const StatusTooManyRequests := 429
  const StatusInternalServerError := 500

  const MethodGet: string := "GET"
  const MethodOptions: string := "OPTIONS"

  /** `r.URL.Query().Get(name)`: the parameter's value, or "" when it is absent. */
  function QueryParam(r: Request, name: string): string {
    if name in r.query then r.query[name] else ""
  }

  /** `http.Error(w, msg, code)`: a plain-text reply of `msg` and a newline. */
  function Error<P>(msg: string, code: int): (r: Response<P>)
    ensures r.status == code
    ensures r.body == Text(msg + "\n")
    ensures r.headers.Keys == {"Content-Type", "X-Content-Type-Options"}
  {
    Response(code, map["Content-Type" := "text/plain; charset=utf-8", "X-Content-Type-Options" := "nosniff"], Text(msg + "\n"))
  }
}

=== FILE: ingest.dfy ===
/** `IngestAll`: the surah catalogue and the per-surah Arabic and translation documents of
    quranjson, normalised into `surah` and `ayah` rows and written with `INSERT OR REPLACE`. */
module Ingest {
  import opened Wrappers
  import opened Text
  import opened Numbers
  import opened Json
  import opened Fetch
  import opened Tables

  const SurahCount: int := 114

  // ---------------------------------------------------------------------------------------------
  // The surah catalogue

  /** The surah number a catalogue "index" string is written at: the string without leading
      zeros, read by `strconv.ParseInt(_, 10, 32)` with its error ignored. */
  function IndexNumber(idx: string): (n: int)
    ensures var t := TrimLeftChar(idx, '0');
      && (IsNumeral(t, Int32) ==> n == SignedValue(t))
      && (SyntaxError(t, Int32) ==> n == 0)
      && (!IsNumeral(t, Int32) && !SyntaxError(t, Int32) ==> n == RangeBound(t, Int32))
  {
    ParseInt(TrimLeftChar(idx, '0'), Int32).value
  }

  /** The surah row one catalogue entry produces, with the number it is written at; None when
      "index" is absent, not a string or empty, the only case in which the entry is skipped. */
  function IndexEntry(o: Object): (e: Option<(int, SurahRow)>)
    ensures e.None? <==> StringAt(o, "index") == ""
    ensures e.Some? ==> e.value.0 == IndexNumber(StringAt(o, "index"))
    ensures e.Some? ==> Trimmed(e.value.1.nameAr)
    ensures e.Some? && StringAt(o, "titleAr") != "" ==> e.value.1.nameAr == TrimSpace(StringAt(o, "titleAr"))
    ensures e.Some? && StringAt(o, "titleAr") == "" ==> e.value.1.nameAr == TrimSpace(StringAt(o, "title"))
    ensures e.Some? ==> e.value.1.nameLatin == StringAt(o, "title")
    ensures e.Some? ==> e.value.1.revelation == StringAt(o, "place")
    ensures e.Some? ==> e.value.1.versesCount == IntAt(o, "count")
  {
    var idx := StringAt(o, "index");
    if idx == "" then None
    else
      var nameAr := if StringAt(o, "titleAr") != "" then StringAt(o, "titleAr") else StringAt(o, "title");
      Some((IndexNumber(idx), SurahRow(TrimSpace(nameAr), StringAt(o, "title"), StringAt(o, "place"), IntAt(o, "count"))))
  }

  /** quranjson's zero-padded "001" .. "114", and any other run of zeros before a numeral, is
      written at the number the numeral denotes. */
  lemma IndexNumberOfPadded(zeros: nat, n: int)
    requires 1 <= n < Cutoff(Int32)
    ensures IndexNumber(Zeros(zeros) + Itoa(n)) == n
  {
    var z := Zeros(zeros);
    var s := z + Itoa(n);
    var t := TrimLeftChar(s, '0');
    TrimZerosBeforeNumeral(z, Itoa(n));
    ParseItoa(n, Int32);
  }

  lemma {:induction false} TrimZerosBeforeNumeral(z: string, d: string)
    requires forall i :: 0 <= i < |z| ==> z[i] == '0'
    requires d != [] && d[0] != '0'
    ensures TrimLeftChar(z + d, '0') == d
  {
    if z == [] {
      assert z + d == d;
    } else {
      assert (z + d)[1..] == z[1..] + d;
      TrimZerosBeforeNumeral(z[1..], d);
    }
  }

  lemma IndexNumberOfPad3(n: int)
    requires 1 <= n <= 999
    ensures IndexNumber(Pad3(n)) == n
  {
    IndexNumberOfPadded(3 - |NatDigits(n)|, n);
  }

  /** An "index" that is a syntax error once its leading zeros are gone ("000", "abc", "0x1",
      "5a") is written at number 0: such entries are not skipped. */
  lemma IndexNumberUnparsable(o: Object)
    requires StringAt(o, "index") != ""
    requires SyntaxError(TrimLeftChar(StringAt(o, "index"), '0'), Int32)
    ensures IndexEntry(o).Some? && IndexEntry(o).value.0 == 0
  {
  }

  /** An "index" whose digits overflow 32 bits, such as `99999999999`, is not written at 0 but at
      the clamped bound 2147483647. */
  lemma IndexNumberOverflow(n: int)
    requires n > MaxUint(Int32)
    ensures IndexNumber(Itoa(n)) == Cutoff(Int32) - 1
  {
    var t := Itoa(n);
    assert TrimLeftChar(t, '0') == t;
    assert Unsigned(t) == t;
  }

  /** The normalised catalogue: the row each entry produces, in catalogue order. */
  function IndexRows(entries: seq<Object>): (rows: seq<Option<(int, SurahRow)>>)
    ensures |rows| == |entries|
    ensures forall j :: 0 <= j < |entries| ==> rows[j] == IndexEntry(entries[j])
  {
    seq(|entries|, j requires 0 <= j < |entries| => IndexEntry(entries[j]))
  }

  /** Write `j` of `writes` goes to key `k`. */
  predicate WritesAt<K(==), V>(writes: seq<Option<(K, V)>>, j: int, k: K)
    requires 0 <= j < |writes|
  {
    writes[j].Some? && writes[j].value.0 == k
  }

  /** Write `j` is the last of `writes` to its key. */
  predicate LastAt<K(==), V>(writes: seq<Option<(K, V)>>, j: int)
    requires 0 <= j < |writes|
  {
    && writes[j].Some?
    && forall i :: j < i < |writes| ==> !WritesAt(writes, i, writes[j].value.0)
  }

  /** A sequence of `INSERT OR REPLACE` statements, in order; `None` is a skipped statement. */
  function UpsertAll<K, V>(table: map<K, V>, writes: seq<Option<(K, V)>>): (r: map<K, V>)
    ensures table.Keys <= r.Keys
    ensures writes != [] && writes[|writes| - 1].Some? ==>
      var (k, v) := writes[|writes| - 1].value; k in r && r[k] == v
    decreases |writes|
  {
    if writes == [] then table
    else
      var prev := UpsertAll(table, writes[..|writes| - 1]);
      match writes[|writes| - 1]
      case None => prev
      case Some((k, v)) => prev[k := v]
  }

  /** Upserting writes a row at exactly the keys some statement writes, and keeps every row. */
  lemma {:induction false} UpsertAllKeys<K, V>(table: map<K, V>, writes: seq<Option<(K, V)>>, k: K)
    ensures k in UpsertAll(table, writes) <==> k in table || exists j :: 0 <= j < |writes| && WritesAt(writes, j, k)
    decreases |writes|
  {
    if writes != [] {
      var init := writes[..|writes| - 1];
      var prev := UpsertAll(table, init);
      var last := |writes| - 1;
      UpsertAllKeys(table, init, k);
      assert UpsertAll(table, writes) == if writes[last].Some? then prev[writes[last].value.0 := writes[last].value.1] else prev;
      if exists j :: 0 <= j < |init| && WritesAt(init, j, k) {
        var j :| 0 <= j < |init| && WritesAt(init, j, k);
        assert WritesAt(writes, j, k);
      }
      if exists j :: 0 <= j < |writes| && WritesAt(writes, j, k) {
        var j :| 0 <= j < |writes| && WritesAt(writes, j, k);
        if j < |init| {
          assert WritesAt(init, j, k);
        }
      } else {
        assert !WritesAt(writes, last, k);
        forall j | 0 <= j < |init| ensures !WritesAt(init, j, k) {
          assert !WritesAt(writes, j, k);
        }
      }
    }
  }

  /** A later write replaces an earlier one to the same key: each key holds its last write. */
  lemma {:induction false} UpsertAllLastWins<K, V>(table: map<K, V>, writes: seq<Option<(K, V)>>, j: int)
    requires 0 <= j < |writes| && LastAt(writes, j)
    ensures writes[j].value.0 in UpsertAll(table, writes)
    ensures UpsertAll(table, writes)[writes[j].value.0] == writes[j].value.1
    decreases |writes|
  {
    var init := writes[..|writes| - 1];
    if j < |init| {
      assert !WritesAt(writes, |writes| - 1, writes[j].value.0);
      assert LastAt(init, j) by {
        forall i | j < i < |init| ensures !WritesAt(init, i, init[j].value.0) {
          assert !WritesAt(writes, i, writes[j].value.0);
        }
      }
      UpsertAllLastWins(table, init, j);
    }
  }

  /** A key no statement writes keeps its row. */
  lemma {:induction false} UpsertAllKeeps<K, V>(table: map<K, V>, writes: seq<Option<(K, V)>>, k: K)
    requires k in table
    requires forall j :: 0 <= j < |writes| ==> !WritesAt(writes, j, k)
    ensures UpsertAll(table, writes)[k] == table[k]
    decreases |writes|
  {
    if writes != [] {
      var init := writes[..|writes| - 1];
      assert !WritesAt(writes, |writes| - 1, k);
      assert forall j :: 0 <= j < |init| ==> !WritesAt(init, j, k) by {
        forall j | 0 <= j < |init| ensures !WritesAt(init, j, k) {
          assert !WritesAt(writes, j, k);
        }
      }
      UpsertAllKeeps(table, init, k);
    }
  }

  /** The catalogue phase of `IngestAll`: every entry's row upserted by surah number. */
  function UpsertIndex(table: map<int, SurahRow>, entries: seq<Object>): map<int, SurahRow> {
    UpsertAll(table, IndexRows(entries))
  }

  lemma {:induction false} LastWriterExists<K, V>(writes: seq<Option<(K, V)>>, k: K)
    requires exists j :: 0 <= j < |writes| && WritesAt(writes, j, k)
    ensures exists j :: 0 <= j < |writes| && LastAt(writes, j) && writes[j].value.0 == k
    decreases |writes|
  {
    var last := |writes| - 1;
    if !WritesAt(writes, last, k) {
      var init := writes[..last];
      var j0 :| 0 <= j0 < |writes| && WritesAt(writes, j0, k);
      assert WritesAt(init, j0, k);
      LastWriterExists(init, k);
      var j :| 0 <= j < |init| && LastAt(init, j) && init[j].value.0 == k;
      assert LastAt(writes, j) by {
        forall i | j < i < |writes| ensures !WritesAt(writes, i, k) {
          if i < last {
            assert !WritesAt(init, i, k);
          }
        }
      }
    } else {
      assert LastAt(writes, last);
    }
  }

  lemma MapsAgree<K, V>(a: map<K, V>, b: map<K, V>)
    requires forall k :: k in a <==> k in b
    requires forall k :: k in a ==> a[k] == b[k]
    ensures a == b
  {
  }

  /** Replaying the same statements on their own result changes nothing. */
  lemma UpsertAllIdempotent<K, V>(table: map<K, V>, writes: seq<Option<(K, V)>>)
    ensures UpsertAll(UpsertAll(table, writes), writes) == UpsertAll(table, writes)
  {
    var r1 := UpsertAll(table, writes);
    var r2 := UpsertAll(r1, writes);
    forall k | true
      ensures k in r1 <==> k in r2
      ensures k in r1 ==> r1[k] == r2[k]
    {
      UpsertAllKeys(table, writes, k);
      UpsertAllKeys(r1, writes, k);
      if exists j :: 0 <= j < |writes| && WritesAt(writes, j, k) {
        LastWriterExists(writes, k);
        var j :| 0 <= j < |writes| && LastAt(writes, j) && writes[j].value.0 == k;
        UpsertAllLastWins(table, writes, j);
        UpsertAllLastWins(r1, writes, j);
      } else if k in r1 {
        UpsertAllKeeps(r1, writes, k);
      }
    }
    MapsAgree(r1, r2);
  }

  // ---------------------------------------------------------------------------------------------
  // The per-surah ayah rows

  /** The key of ayah `i` inside a quranjson "verse" object. */
  function VerseKey(i: int): string {
    "verse_" + Itoa(i)
  }

  /** The row written for ayah `i` of `surah`: the trimmed Arabic text, the untrimmed
      translation, no tajweed, juz 1, and the derived audio link. */
  function AyahFor(surah: int, i: int, arabicDoc: Object, translationDoc: Object): (r: AyahRow)
    ensures r.juz == 1 && r.tajweed == []
    ensures Trimmed(r.arabic)
    ensures r.arabic == TrimSpace(StringAt(ObjectAt(arabicDoc, "verse"), VerseKey(i)))
    ensures r.trans == StringAt(ObjectAt(translationDoc, "verse"), VerseKey(i))
    ensures translationDoc == map[] ==> r.trans == []
    ensures 0 <= surah < 1000 && 0 <= i < 1000 ==> AudioUrlParts(r.audioUrl) == Some((surah, i))
  {
    AyahRow(
      1,
      TrimSpace(StringAt(ObjectAt(arabicDoc, "verse"), VerseKey(i))),
      "",
      StringAt(ObjectAt(translationDoc, "verse"), VerseKey(i)),
      AudioUrl(surah, i))
  }

  /** How many ayah rows a surah gets: the Arabic document's "count", 0 if it is not a number. */
  function VerseCount(arabicDoc: Object): int {
    IntAt(arabicDoc, "count")
  }

  /** The rows one surah's transaction upserts: ayahs 1..count. */
  function AyahBatch(surah: int, arabicDoc: Object, translationDoc: Object): (b: map<AyahKey, AyahRow>)
    ensures forall k :: k in b <==> k.0 == surah && 1 <= k.1 <= VerseCount(arabicDoc)
    ensures forall k :: k in b ==> b[k] == AyahFor(surah, k.1, arabicDoc, translationDoc)
  {
    map i | 1 <= i <= VerseCount(arabicDoc) :: (surah, i) := AyahFor(surah, i, arabicDoc, translationDoc)
  }

  /** What the two fetches of one surah returned. */
  datatype SurahDocs = SurahDocs(arabic: Result<Object, FetchError>, translation: Result<Object, FetchError>)

  /** A failed translation fetch reads as a document without verses. */
  function TranslationDoc(docs: SurahDocs): Object {
    docs.translation.GetOr(map[])
  }

  datatype IngestError = IndexFailed(cause: FetchError) | SurahFailed(surah: int, cause: FetchError)

  /** The store after a run, and the error the run returned (None for nil). */
  datatype Outcome = Outcome(db: Db, err: Option<IngestError>)

  /** The surah loop of `IngestAll`, from surah number `surah` on: each surah whose Arabic text
      arrived commits its rows; the first whose Arabic text failed stops the run with its error. */
  function IngestSurahs(db: Db, surah: int, docs: seq<SurahDocs>): (o: Outcome)
    ensures o.db.surah == db.surah
    ensures db.ayah.Keys <= o.db.ayah.Keys
    ensures o.err.None? <==> forall k :: 0 <= k < |docs| ==> docs[k].arabic.Ok?
    ensures o.err.Some? ==>
      && o.err.value.SurahFailed?
      && surah <= o.err.value.surah < surah + |docs|
      && docs[o.err.value.surah - surah].arabic == Err(o.err.value.cause)
      && forall k :: 0 <= k < o.err.value.surah - surah ==> docs[k].arabic.Ok?
    decreases |docs|
  {
    if docs == [] then Outcome(db, None)
    else
      match docs[0].arabic
      case Err(e) => Outcome(db, Some(SurahFailed(surah, e)))
      case Ok(ar) =>
        var o := IngestSurahs(db.(ayah := db.ayah + AyahBatch(surah, ar, TranslationDoc(docs[0]))), surah + 1, docs[1..]);
        assert forall k :: 0 < k < |docs| ==> docs[k] == docs[1..][k - 1];
        o
  }

  /** `IngestAll` given what its fetches returned: the catalogue transaction, then the surahs
      numbered 1 upwards. */
  function IngestRun(db: Db, index: Result<seq<Object>, FetchError>, docs: seq<SurahDocs>): (o: Outcome)
    ensures index.Err? ==> o == Outcome(db, Some(IndexFailed(index.error)))
    ensures index.Ok? ==> o.db.surah == UpsertIndex(db.surah, index.value)
    ensures db.ayah.Keys <= o.db.ayah.Keys
    ensures index.Ok? ==> (o.err.None? <==> forall k :: 0 <= k < |docs| ==> docs[k].arabic.Ok?)
    ensures index.Ok? && o.err.Some? ==>
      && o.err.value.SurahFailed?
      && 1 <= o.err.value.surah <= |docs|
      && docs[o.err.value.surah - 1].arabic == Err(o.err.value.cause)
  {
    match index
    case Err(e) => Outcome(db, Some(IndexFailed(e)))
    case Ok(entries) => IngestSurahs(db.(surah := UpsertIndex(db.surah, entries)), 1, docs)
  }

  /** The Arabic and translation documents of surah `n`. */
  function DocsOf(web: Web, lang: string, n: int): SurahDocs {
    SurahDocs(FetchArabicSurah(web, n), FetchTranslation(web, lang, n))
  }

  /** The two documents `IngestAll` fetches for each of the surahs 1..114. */
  function SurahSources(web: Web, lang: string): (docs: seq<SurahDocs>)
    ensures |docs| == SurahCount
    ensures forall k :: 0 <= k < SurahCount ==> docs[k] == DocsOf(web, lang, k + 1)
  {
    seq(SurahCount, k => DocsOf(web, lang, k + 1))
  }

  /** `IngestAll(ctx, db, lang)` against the remote host `web`. Fetching is free of side effects,
      so fetching every surah's documents up front is the same as fetching them in the loop. */
  function IngestAll(db: Db, lang: string, web: Web): (o: Outcome)
    ensures FetchSurahIndex(web).Err? ==> o == Outcome(db, Some(IndexFailed(FetchSurahIndex(web).error)))
    ensures FetchSurahIndex(web).Ok? ==> o.db.surah == UpsertIndex(db.surah, FetchSurahIndex(web).value)
    ensures db.ayah.Keys <= o.db.ayah.Keys
    ensures o.err.None? <==> FetchSurahIndex(web).Ok? && forall n :: 1 <= n <= SurahCount ==> FetchArabicSurah(web, n).Ok?
    ensures o.err.Some? && o.err.value.SurahFailed? ==>
      && 1 <= o.err.value.surah <= SurahCount
      && FetchArabicSurah(web, o.err.value.surah) == Err(o.err.value.cause)
  {
    var docs := SurahSources(web, lang);
    var o := IngestRun(db, FetchSurahIndex(web), docs);
    assert FetchSurahIndex(web).Ok? ==>
      ((forall k :: 0 <= k < |docs| ==> docs[k].arabic.Ok?) <==> forall n :: 1 <= n <= SurahCount ==> FetchArabicSurah(web, n).Ok?)
    by {
      if forall k :: 0 <= k < |docs| ==> docs[k].arabic.Ok? {
        forall n | 1 <= n <= SurahCount ensures FetchArabicSurah(web, n).Ok? {
          assert docs[n - 1].arabic == FetchArabicSurah(web, n);
        }
      }
    }
    o
  }

  // ---------------------------------------------------------------------------------------------
  // What a run writes

  /** Position of the first surah whose Arabic fetch failed, or `|docs|` when none failed. */
  function FirstFailure(docs: seq<SurahDocs>): (f: nat)
    ensures f <= |docs|
    ensures forall k :: 0 <= k < f ==> docs[k].arabic.Ok?
    ensures f < |docs| ==> docs[f].arabic.Err?
  {
    if docs == [] || docs[0].arabic.Err? then 0 else 1 + FirstFailure(docs[1..])
  }

  /** Every ayah row the surah loop writes, starting at surah number `surah`: the batches of the
      surahs before the first failure, joined. */
  function Written(surah: int, docs: seq<SurahDocs>): map<AyahKey, AyahRow>
    decreases |docs|
  {
    if docs == [] || docs[0].arabic.Err? then map[]
    else AyahBatch(surah, docs[0].arabic.value, TranslationDoc(docs[0])) + Written(surah + 1, docs[1..])
  }

  /** `Written` holds exactly ayahs 1..count of each surah before the first failure. */
  lemma {:induction false} WrittenKeys(surah: int, docs: seq<SurahDocs>)
    ensures forall k :: k in Written(surah, docs) <==>
      surah <= k.0 < surah + FirstFailure(docs) && 1 <= k.1 <= VerseCount(docs[k.0 - surah].arabic.value)
    decreases |docs|
  {
    if docs != [] && docs[0].arabic.Ok? {
      WrittenKeys(surah + 1, docs[1..]);
      var f := FirstFailure(docs);
      assert f == 1 + FirstFailure(docs[1..]);
      forall k: AyahKey
        ensures k in Written(surah, docs) <==>
          surah <= k.0 < surah + f && 1 <= k.1 <= VerseCount(docs[k.0 - surah].arabic.value)
      {
        if surah < k.0 < surah + f {
          assert docs[1..][k.0 - (surah + 1)] == docs[k.0 - surah];
        }
      }
    }
  }

  /** One row of `Written` is built from its own surah's documents. */
  lemma {:induction false} WrittenValueAt(surah: int, docs: seq<SurahDocs>, k: AyahKey)
    requires k in Written(surah, docs)
    ensures surah <= k.0 < surah + FirstFailure(docs)
    ensures Written(surah, docs)[k] == AyahFor(k.0, k.1, docs[k.0 - surah].arabic.value, TranslationDoc(docs[k.0 - surah]))
    decreases |docs|
  {
    var batch := AyahBatch(surah, docs[0].arabic.value, TranslationDoc(docs[0]));
    var rest := Written(surah + 1, docs[1..]);
    assert FirstFailure(docs) == 1 + FirstFailure(docs[1..]);
    if k in rest {
      WrittenValueAt(surah + 1, docs[1..], k);
      assert docs[1..][k.0 - (surah + 1)] == docs[k.0 - surah];
    } else {
      assert k in batch;
    }
  }

  /** Each row of `Written` is built from its own surah's documents. */
  lemma WrittenValues(surah: int, docs: seq<SurahDocs>)
    ensures forall k :: k in Written(surah, docs) ==>
      surah <= k.0 < surah + FirstFailure(docs) &&
      Written(surah, docs)[k] == AyahFor(k.0, k.1, docs[k.0 - surah].arabic.value, TranslationDoc(docs[k.0 - surah]))
  {
    forall k | k in Written(surah, docs)
      ensures surah <= k.0 < surah + FirstFailure(docs)
      ensures Written(surah, docs)[k] == AyahFor(k.0, k.1, docs[k.0 - surah].arabic.value, TranslationDoc(docs[k.0 - surah]))
    {
      WrittenValueAt(surah, docs, k);
    }
  }

  /** Both halves of what `Written` holds. */
  lemma WrittenRows(surah: int, docs: seq<SurahDocs>)
    ensures forall k :: k in Written(surah, docs) <==>
      surah <= k.0 < surah + FirstFailure(docs) && 1 <= k.1 <= VerseCount(docs[k.0 - surah].arabic.value)
    ensures forall k :: k in Written(surah, docs) ==>
      surah <= k.0 < surah + FirstFailure(docs) &&
      Written(surah, docs)[k] == AyahFor(k.0, k.1, docs[k.0 - surah].arabic.value, TranslationDoc(docs[k.0 - surah]))
  {
    WrittenKeys(surah, docs);
    WrittenValues(surah, docs);
  }

  lemma UnionAssociative<K, V>(a: map<K, V>, b: map<K, V>, c: map<K, V>)
    ensures (a + b) + c == a + (b + c)
  {
    MapsAgree((a + b) + c, a + (b + c));
  }

  lemma UnionIdempotent<K, V>(a: map<K, V>, b: map<K, V>)
    ensures (a + b) + b == a + b
  {
    MapsAgree((a + b) + b, a + b);
  }

  /** The error a run of the surah loop returns: that of the first failed Arabic fetch. */
  function LoopError(surah: int, docs: seq<SurahDocs>): Option<IngestError> {
    var f := FirstFailure(docs);
    if f < |docs| then Some(SurahFailed(surah + f, docs[f].arabic.error)) else None
  }

  /** The surah loop adds the rows `Written` describes to whatever the store held, and returns the
      first Arabic failure; neither depends on the store it runs against. */
  lemma {:induction false} IngestSurahsWrites(db: Db, surah: int, docs: seq<SurahDocs>)
    ensures IngestSurahs(db, surah, docs) == Outcome(db.(ayah := db.ayah + Written(surah, docs)), LoopError(surah, docs))
    decreases |docs|
  {
    if docs == [] {
      assert db.ayah + map[] == db.ayah;
    } else if docs[0].arabic.Err? {
      assert db.ayah + map[] == db.ayah;
    } else {
      var b := AyahBatch(surah, docs[0].arabic.value, TranslationDoc(docs[0]));
      IngestSurahsWrites(db.(ayah := db.ayah + b), surah + 1, docs[1..]);
      UnionAssociative(db.ayah, b, Written(surah + 1, docs[1..]));
    }
  }

  /** For surah `k + 1`, fetched without failure before it: ayahs 1..count hold the rows built
      from its documents, and no other row of that surah changes. Ayah rows numbered above the
      count, left by an earlier run, survive: upserting never deletes. */
  lemma RunWritesSurah(db: Db, index: Result<seq<Object>, FetchError>, docs: seq<SurahDocs>, k: int)
    requires index.Ok?
    requires 0 <= k < FirstFailure(docs)
    ensures var o := IngestRun(db, index, docs);
      var ar := docs[k].arabic.value;
      && (forall key: AyahKey :: key.0 == k + 1 ==> (key in o.db.ayah <==> key in db.ayah || 1 <= key.1 <= VerseCount(ar)))
      && (forall key: AyahKey :: key.0 == k + 1 && 1 <= key.1 <= VerseCount(ar) ==>
            key in o.db.ayah && o.db.ayah[key] == AyahFor(k + 1, key.1, ar, TranslationDoc(docs[k])))
      && (forall key: AyahKey :: key.0 == k + 1 && key in db.ayah && !(1 <= key.1 <= VerseCount(ar)) ==>
            o.db.ayah[key] == db.ayah[key])
  {
    var db1 := db.(surah := UpsertIndex(db.surah, index.value));
    IngestSurahsWrites(db1, 1, docs);
    assert IngestRun(db, index, docs).db.ayah == db.ayah + Written(1, docs);
    WrittenSurah(docs, k);
  }

  /** The rows a run starting at surah 1 writes for a surah fetched before the first failure. */
  lemma WrittenSurah(docs: seq<SurahDocs>, k: int)
    requires 0 <= k < FirstFailure(docs)
    ensures forall key: AyahKey :: key.0 == k + 1 ==>
      (key in Written(1, docs) <==> 1 <= key.1 <= VerseCount(docs[k].arabic.value))
    ensures forall key: AyahKey :: key.0 == k + 1 && key in Written(1, docs) ==>
      Written(1, docs)[key] == AyahFor(k + 1, key.1, docs[k].arabic.value, TranslationDoc(docs[k]))
  {
    WrittenKeys(1, docs);
    forall key: AyahKey | key.0 == k + 1 && key in Written(1, docs)
      ensures Written(1, docs)[key] == AyahFor(k + 1, key.1, docs[k].arabic.value, TranslationDoc(docs[k]))
    {
      WrittenValueAt(1, docs, key);
    }
  }

  /** The rows of a run starting at surah 1 belong to the surahs before the first failure. */
  lemma WrittenSurahs(docs: seq<SurahDocs>)
    ensures forall key :: key in Written(1, docs) ==> 1 <= key.0 <= FirstFailure(docs)
  {
    WrittenKeys(1, docs);
  }

  /** Adding rows of surahs 1..f leaves every other surah's rows as they were. */
  lemma UnionOutside(m: map<AyahKey, AyahRow>, w: map<AyahKey, AyahRow>, f: int)
    requires forall key :: key in w ==> 1 <= key.0 <= f
    ensures forall key: AyahKey :: (key.0 < 1 || key.0 > f) ==> (key in m + w <==> key in m)
    ensures forall key: AyahKey :: (key.0 < 1 || key.0 > f) && key in m ==> (m + w)[key] == m[key]
  {
  }

  /** An Arabic fetch failure at surah `f + 1` stops the run with that surah's error: the
      catalogue and the surahs before it stay committed, and no row of a surah from `f + 1` on,
      nor of any number outside 1..114, changes. */
  lemma RunAbortsAtFailure(db: Db, index: Result<seq<Object>, FetchError>, docs: seq<SurahDocs>)
    requires index.Ok?
    requires FirstFailure(docs) < |docs|
    ensures var o := IngestRun(db, index, docs);
      var f := FirstFailure(docs);
      && o.err == Some(SurahFailed(f + 1, docs[f].arabic.error))
      && o.db.surah == UpsertIndex(db.surah, index.value)
      && (forall key: AyahKey :: (key.0 < 1 || key.0 > f) ==> (key in o.db.ayah <==> key in db.ayah))
      && (forall key: AyahKey :: (key.0 < 1 || key.0 > f) && key in db.ayah ==> o.db.ayah[key] == db.ayah[key])
  {
    var db1 := db.(surah := UpsertIndex(db.surah, index.value));
    IngestSurahsWrites(db1, 1, docs);
    var o := IngestRun(db, index, docs);
    var w := Written(1, docs);
    assert o.db.ayah == db.ayah + w;
    WrittenSurahs(docs);
    UnionOutside(db.ayah, w, FirstFailure(docs));
  }

  /** A run that fetched every Arabic document returns nil. */
  lemma RunSucceeds(db: Db, index: Result<seq<Object>, FetchError>, docs: seq<SurahDocs>)
    requires index.Ok?
    requires forall k :: 0 <= k < |docs| ==> docs[k].arabic.Ok?
    ensures IngestRun(db, index, docs).err == None
  {
    var db1 := db.(surah := UpsertIndex(db.surah, index.value));
    IngestSurahsWrites(db1, 1, docs);
  }

  /** A failed catalogue fetch returns its error and writes nothing. */
  lemma RunIndexFailure(db: Db, index: Result<seq<Object>, FetchError>, docs: seq<SurahDocs>)
    requires index.Err?
    ensures IngestRun(db, index, docs) == Outcome(db, Some(IndexFailed(index.error)))
  {
  }

  /** Running ingestion again on the same documents leaves the store as the first run left it and
      returns the same error. */
  lemma IngestRunIdempotent(db: Db, index: Result<seq<Object>, FetchError>, docs: seq<SurahDocs>)
    ensures IngestRun(IngestRun(db, index, docs).db, index, docs) == IngestRun(db, index, docs)
  {
    if index.Ok? {
      var db1 := db.(surah := UpsertIndex(db.surah, index.value));
      IngestSurahsWrites(db1, 1, docs);
      var o := IngestRun(db, index, docs);
      var db2 := o.db.(surah := UpsertIndex(o.db.surah, index.value));
      UpsertAllIdempotent(db.surah, IndexRows(index.value));
      IngestSurahsWrites(db2, 1, docs);
      UnionIdempotent(db.ayah, Written(1, docs));
    }
  }

  /** `IngestAll` twice in a row against an unchanged source is `IngestAll` once. */
  lemma IngestAllIdempotent(db: Db, lang: string, web: Web)
    ensures IngestAll(IngestAll(db, lang, web).db, lang, web) == IngestAll(db, lang, web)
  {
    IngestRunIdempotent(db, FetchSurahIndex(web), SurahSources(web, lang));
  }

  lemma {:induction false} FirstFailureIgnoresTranslation(docs: seq<SurahDocs>, k: int, t: Result<Object, FetchError>)
    requires 0 <= k < |docs|
    ensures FirstFailure(docs[k := docs[k].(translation := t)]) == FirstFailure(docs)
    decreases |docs|
  {
    var docs' := docs[k := docs[k].(translation := t)];
    if k > 0 && docs[0].arabic.Ok? {
      assert docs'[1..] == docs[1..][k - 1 := docs[k].(translation := t)];
      FirstFailureIgnoresTranslation(docs[1..], k - 1, t);
    }
  }

  lemma WrittenKeysIgnoreTranslation(surah: int, docs: seq<SurahDocs>, k: int, t: Result<Object, FetchError>)
    requires 0 <= k < |docs|
    ensures Written(surah, docs[k := docs[k].(translation := t)]).Keys == Written(surah, docs).Keys
  {
    WrittenKeysFollowArabic(surah, docs[k := docs[k].(translation := t)], docs);
  }

  /** Which rows are written depends only on the Arabic fetches. */
  lemma {:induction false} WrittenKeysFollowArabic(surah: int, a: seq<SurahDocs>, b: seq<SurahDocs>)
    requires |a| == |b|
    requires forall j :: 0 <= j < |a| ==> a[j].arabic == b[j].arabic
    ensures Written(surah, a).Keys == Written(surah, b).Keys
    decreases |a|
  {
    if a != [] && a[0].arabic.Ok? {
      assert b[0].arabic == a[0].arabic;
      var ba := AyahBatch(surah, a[0].arabic.value, TranslationDoc(a[0]));
      var bb := AyahBatch(surah, b[0].arabic.value, TranslationDoc(b[0]));
      assert ba.Keys == bb.Keys;
      WrittenKeysFollowArabic(surah + 1, a[1..], b[1..]);
      var ra := Written(surah + 1, a[1..]);
      var rb := Written(surah + 1, b[1..]);
      assert (ba + ra).Keys == ba.Keys + ra.Keys;
      assert (bb + rb).Keys == bb.Keys + rb.Keys;
    }
  }

  /** A translation never fails a surah: whatever its fetch returned, the run returns the same
      error and writes the same ayah keys. */
  lemma TranslationNeverFails(db: Db, index: Result<seq<Object>, FetchError>, docs: seq<SurahDocs>, k: int, t: Result<Object, FetchError>)
    requires 0 <= k < |docs|
    ensures var o := IngestRun(db, index, docs);
      var o' := IngestRun(db, index, docs[k := docs[k].(translation := t)]);
      o'.err == o.err && o'.db.ayah.Keys == o.db.ayah.Keys
  {
    if index.Ok? {
      var docs' := docs[k := docs[k].(translation := t)];
      var db1 := db.(surah := UpsertIndex(db.surah, index.value));
      IngestSurahsWrites(db1, 1, docs);
      IngestSurahsWrites(db1, 1, docs');
      FirstFailureIgnoresTranslation(docs, k, t);
      WrittenKeysIgnoreTranslation(1, docs, k, t);
    }
  }

  /** When a surah's translation fetch failed, every ayah row written for it has an empty
      translation. */
  lemma TranslationFailureBlank(db: Db, index: Result<seq<Object>, FetchError>, docs: seq<SurahDocs>, k: int)
    requires index.Ok?
    requires 0 <= k < FirstFailure(docs)
    requires docs[k].translation.Err?
    ensures forall key: AyahKey :: key.0 == k + 1 && 1 <= key.1 <= VerseCount(docs[k].arabic.value) ==>
      key in IngestRun(db, index, docs).db.ayah && IngestRun(db, index, docs).db.ayah[key].trans == ""
  {
    RunWritesSurah(db, index, docs, k);
  }
}

=== FILE: json.dfy ===
/** The decoded JSON the ingester works on, and the `map[string]any` reads it performs. */
module Json {
  import opened Wrappers

  /** A decoded JSON value. Numbers are integers in this model. */
  datatype Json =
    | JNull
    | JBool(b: bool)
    | JNum(n: int)
    | JStr(s: string)
    | JArr(items: seq<Json>)
    | JObj(fields: map<string, Json>)

  /** A decoded `map[string]any`; a nil map reads like the empty one. */
  type Object = map<string, Json>

  /** `o[key].(string)` with the ok result dropped: "" unless a string is stored there. */
  function StringAt(o: Object, key: string): string {
    if key in o && o[key].JStr? then o[key].s else ""
  }

  /** `cnt := 0; if v, ok := o[key].(float64); ok { cnt = int(v) }`. */
  function IntAt(o: Object, key: string): int {
    if key in o && o[key].JNum? then o[key].n else 0
  }

  /** `o[key].(map[string]any)` with the ok result dropped: a nil (empty) map unless an object is there. */
  function ObjectAt(o: Object, key: string): Object {
    if key in o && o[key].JObj? then o[key].fields else map[]
  }

  /** `json.Decode` into a `map[string]any`: an object, or `null` which leaves the map nil. */
  function DecodeObject(j: Json): (r: Option<Object>)
    ensures r.Some? <==> j.JObj? || j.JNull?
    ensures j.JNull? ==> r == Some(map[])
    ensures j.JObj? ==> r == Some(j.fields)
  {
    match j
    case JObj(m) => Some(m)
    case JNull => Some(map[])
    case _ => None
  }

  /** Decoding each element of an array into `map[string]any`; one bad element fails the whole decode. */
  function DecodeObjectList(items: seq<Json>): (r: Option<seq<Object>>)
    ensures r.Some? <==> forall i :: 0 <= i < |items| ==> DecodeObject(items[i]).Some?
    ensures r.Some? ==> |r.value| == |items|
    ensures r.Some? ==> forall i :: 0 <= i < |items| ==> r.value[i] == DecodeObject(items[i]).value
  {
    if items == [] then Some([])
    else
      match (DecodeObject(items[0]), DecodeObjectList(items[1..]))
      case (Some(o), Some(os)) => Some([o] + os)
      case (None, _) => None
      case (_, None) =>
        var i :| 0 <= i < |items[1..]| && DecodeObject(items[1..][i]).None?;
        assert DecodeObject(items[i + 1]).None?;
        None
  }

  /** `json.Decode` into a `[]map[string]any`: an array of objects, or `null` which leaves the slice nil. */
  function DecodeObjects(j: Json): (r: Option<seq<Object>>)
    ensures r.Some? <==> j.JNull? || (j.JArr? && forall i :: 0 <= i < |j.items| ==> DecodeObject(j.items[i]).Some?)
    ensures j.JNull? ==> r == Some([])
    ensures r.Some? && j.JArr? ==> |r.value| == |j.items| && forall i :: 0 <= i < |j.items| ==> r.value[i] == DecodeObject(j.items[i]).value
  {
    match j
    case JArr(items) => DecodeObjectList(items)
    case JNull => Some([])
    case _ => None
  }
}

=== FILE: middleware.dfy ===
/** The two wrappers every API router is served through: a global token counter refilled by a
    minute ticker, and a fixed CORS policy. */
module Middleware {
  import opened Text
  import opened Numbers
  import opened Http

  // ---------------------------------------------------------------------------------------------
  // Rate limit

  const DefaultRatePerMin := 120

  /** The limit read from `QURAN_RATE_PER_MIN` at start-up: the value `Atoi` gives, with its error
      ignored, when positive; 120 otherwise. */
  function RatePerMin(env: string): (n: int)
    ensures n > 0
    ensures n == DefaultRatePerMin || n == Atoi(env).value
    ensures IsNumeral(env, Int64) && SignedValue(env) > 0 ==> n == SignedValue(env)
    ensures IsNumeral(env, Int64) && SignedValue(env) <= 0 ==> n == DefaultRatePerMin
    ensures SyntaxError(env, Int64) ==> n == DefaultRatePerMin
    ensures !IsNumeral(env, Int64) && !SyntaxError(env, Int64) ==>
      n == (if RangeBound(env, Int64) > 0 then RangeBound(env, Int64) else DefaultRatePerMin)
  {
    var p := Atoi(env).value;
    if p <= 0 then DefaultRatePerMin else p
  }

  /** A positive numeral sets the limit to its value. */
  lemma RatePerMinOfNumeral(n: int)
    requires 0 < n < Cutoff(Int64)
    ensures RatePerMin(Itoa(n)) == n
  {
    ParseItoa(n, Int64);
  }

  /** A zero or negative numeral falls back to 120. */
  lemma RatePerMinNonPositive(n: int)
    requires -(Cutoff(Int64) as int) <= n <= 0
    ensures RatePerMin(Itoa(n)) == DefaultRatePerMin
  {
    ParseItoa(n, Int64);
  }

  /** An unset variable, or text that is not a number ("abc", "5x", "+"), falls back to 120. */
  lemma RatePerMinUnparsable(env: string)
    requires SyntaxError(env, Int64)
    ensures RatePerMin(env) == DefaultRatePerMin
  {
  }

  /** A variable too large for 64 bits is not a failure: it sets the largest limit. */
  lemma RatePerMinOverflow(n: int)
    requires n >= Cutoff(Int64)
    ensures RatePerMin(Itoa(n)) == Cutoff(Int64) - 1
  {
    assert Unsigned(Itoa(n)) == Itoa(n);
  }

  /** One `RateLimit` wrapper's state: the limit, the shared counter, and whether the ticker's
      one-slot channel holds an unobserved tick. */
  datatype Limiter = Limiter(limit: int, tokens: int, tickPending: bool)

  predicate Valid(l: Limiter) {
    0 < l.limit && 0 <= l.tokens <= l.limit
  }

  /** The counter starts full, with no tick yet. */
  function NewLimiter(env: string): (l: Limiter)
    ensures Valid(l)
    ensures l.limit == RatePerMin(env) && l.tokens == l.limit && !l.tickPending
  {
    Limiter(RatePerMin(env), RatePerMin(env), false)
  }

  /** The tokens the next request sees: a waiting tick resets the counter to the limit. */
  function Available(l: Limiter): int {
    if l.tickPending then l.limit else l.tokens
  }

  /** The minute ticker fires. Its channel holds one tick, so ticks nobody observed coalesce. */
  function Tick(l: Limiter): (r: Limiter)
    ensures Valid(l) ==> Valid(r)
    ensures r.limit == l.limit && r.tokens == l.tokens
    ensures Available(r) == l.limit
  {
    l.(tickPending := true)
  }

  datatype Decision = Admit | Deny

  /** One request's pass through the counter: observe a waiting tick, then deny at zero or take
      a token. A denial leaves the counter where the tick check left it. */
  function Admission(l: Limiter): (r: (Limiter, Decision))
    ensures r.1 == Admit <==> Available(l) > 0
    ensures r.0.limit == l.limit && !r.0.tickPending
    ensures r.0.tokens == (if r.1 == Admit then Available(l) - 1 else Available(l))
    ensures Valid(l) ==> Valid(r.0)
  {
    var t := if l.tickPending then l.limit else l.tokens;
    if t <= 0 then (Limiter(l.limit, t, false), Deny)
    else (Limiter(l.limit, t - 1, false), Admit)
  }

  /** The wrapper: a denied request gets `http.Error("rate limit", 429)` and never reaches `next`;
      an admitted one gets whatever `next` answers. */
  function RateLimit<P>(l: Limiter, next: Handler<P>, req: Request): (r: (Limiter, Response<P>))
    ensures r.0 == Admission(l).0
    ensures Admission(l).1 == Deny ==> r.1 == Error("rate limit", StatusTooManyRequests)
    ensures Admission(l).1 == Admit ==> r.1 == next(req)
  {
    var (l', d) := Admission(l);
    if d == Deny then (l', Error("rate limit", StatusTooManyRequests)) else (l', next(req))
  }

  /** The counter is shared by every caller: neither the next state nor a denial depends on the
      request or on the wrapped handler. */
  lemma RateLimitShared<P>(l: Limiter, n1: Handler<P>, n2: Handler<P>, r1: Request, r2: Request)
    ensures RateLimit(l, n1, r1).0 == RateLimit(l, n2, r2).0
    ensures Admission(l).1 == Admit ==> RateLimit(l, n1, r1).1 == n1(r1)
    ensures Admission(l).1 == Deny ==> RateLimit(l, n1, r1).1 == RateLimit(l, n2, r2).1
  {
  }

  /** What reaches the wrapper over time: ticks of the minute ticker, and requests. */
  datatype Event = TickEvent | RequestEvent(req: Request)

  /** The limiter after a sequence of events, and the decision for each request, in order. */
  function Run(l: Limiter, events: seq<Event>): (r: (Limiter, seq<Decision>))
    ensures r.0.limit == l.limit
    ensures |r.1| == Requests(events)
    decreases |events|
  {
    if events == [] then (l, [])
    else
      var (l', ds) := Run(l, events[..|events| - 1]);
      match events[|events| - 1]
      case TickEvent => (Tick(l'), ds)
      case RequestEvent(_) =>
        var (l'', d) := Admission(l');
        (l'', ds + [d])
  }

  function Admitted(ds: seq<Decision>): nat {
    if ds == [] then 0 else Admitted(ds[..|ds| - 1]) + (if ds[|ds| - 1] == Admit then 1 else 0)
  }

  function Ticks(events: seq<Event>): nat {
    if events == [] then 0 else Ticks(events[..|events| - 1]) + (if events[|events| - 1].TickEvent? then 1 else 0)
  }

  function Requests(events: seq<Event>): nat {
    if events == [] then 0 else Requests(events[..|events| - 1]) + (if events[|events| - 1].RequestEvent? then 1 else 0)
  }

  /** The counter stays within `[0, limit]` and every request gets exactly one decision. */
  lemma {:induction false} RunValid(l: Limiter, events: seq<Event>)
    requires Valid(l)
    ensures Valid(Run(l, events).0)
    ensures |Run(l, events).1| == Requests(events)
    decreases |events|
  {
    if events != [] {
      RunValid(l, events[..|events| - 1]);
    }
  }

  /** Budget: the requests admitted, plus the tokens left, never exceed the tokens available at
      the start plus one full limit per tick. A tick resets rather than adds, so this is an upper
      bound. */
  lemma {:induction false} RunBudget(l: Limiter, events: seq<Event>)
    requires Valid(l)
    ensures Admitted(Run(l, events).1) + Available(Run(l, events).0) <= Available(l) + l.limit * Ticks(events)
    decreases |events|
  {
    if events != [] {
      var init := events[..|events| - 1];
      RunBudget(l, init);
      RunValid(l, init);
      var t := Ticks(init);
      if events[|events| - 1].TickEvent? {
        TickStep(l, events);
        MulStep(l.limit, t);
      } else {
        RequestStep(l, events);
      }
    }
  }

  lemma MulStep(a: int, t: int)
    ensures a * (t + 1) == a * t + a
  {
  }

  /** A tick adds nothing to the decisions and raises the available tokens to the limit. */
  lemma TickStep(l: Limiter, events: seq<Event>)
    requires events != [] && events[|events| - 1].TickEvent?
    ensures var init := events[..|events| - 1];
      && Run(l, events).1 == Run(l, init).1
      && Available(Run(l, events).0) == l.limit
      && Ticks(events) == Ticks(init) + 1
  {
  }

  /** A request adds one decision, which admits iff a token was available and then uses it. */
  lemma RequestStep(l: Limiter, events: seq<Event>)
    requires events != [] && events[|events| - 1].RequestEvent?
    ensures var init := events[..|events| - 1];
      var a := Available(Run(l, init).0);
      && Ticks(events) == Ticks(init)
      && Admitted(Run(l, events).1) == Admitted(Run(l, init).1) + (if a > 0 then 1 else 0)
      && Available(Run(l, events).0) == (if a > 0 then a - 1 else a)
  {
    var init := events[..|events| - 1];
    var ds := Run(l, init).1;
    var d := Admission(Run(l, init).0).1;
    assert Run(l, events).1 == ds + [d];
    assert (ds + [d])[..|ds + [d]| - 1] == ds;
  }

  /** Between two observed ticks at most `limit` requests are admitted. */
  lemma AtMostLimitWithoutTicks(l: Limiter, events: seq<Event>)
    requires Valid(l)
    requires Ticks(events) == 0
    ensures Admitted(Run(l, events).1) <= l.limit
  {
    RunBudget(l, events);
    RunValid(l, events);
  }

  /** `n` requests in a row, with no tick. */
  function Burst(reqs: seq<Request>): (events: seq<Event>)
    ensures |events| == |reqs| && Ticks(events) == 0
  {
    if reqs == [] then [] else Burst(reqs[..|reqs| - 1]) + [RequestEvent(reqs[|reqs| - 1])]
  }

  /** From a counter with `t` tokens and no waiting tick, a burst admits its first `t` requests
      and denies every later one. */
  lemma {:induction false} BurstDecisions(l: Limiter, reqs: seq<Request>)
    requires Valid(l) && !l.tickPending
    ensures Run(l, Burst(reqs)).1 == seq(|reqs|, i => if i < l.tokens then Admit else Deny)
    ensures Run(l, Burst(reqs)).0 == l.(tokens := if |reqs| < l.tokens then l.tokens - |reqs| else 0)
    decreases |reqs|
  {
    if reqs != [] {
      var init := reqs[..|reqs| - 1];
      BurstDecisions(l, init);
      var events := Burst(reqs);
      assert events[..|events| - 1] == Burst(init);
    }
  }

  /** A freshly started wrapper admits the first `limit` requests of a burst and answers every
      later one with 429. */
  lemma FreshBurst(env: string, reqs: seq<Request>)
    ensures var ds := Run(NewLimiter(env), Burst(reqs)).1;
      |ds| == |reqs| && forall i :: 0 <= i < |reqs| ==> (ds[i] == Admit <==> i < RatePerMin(env))
  {
    BurstDecisions(NewLimiter(env), reqs);
  }

  predicate SameTicks(e1: seq<Event>, e2: seq<Event>) {
    |e1| == |e2| && forall i :: 0 <= i < |e1| ==> (e1[i].TickEvent? <==> e2[i].TickEvent?)
  }

  /** Admission is decided by the arrival pattern alone: two event sequences whose ticks fall at
      the same places get the same decisions, whoever sent the requests. */
  lemma {:induction false} RunIgnoresRequests(l: Limiter, e1: seq<Event>, e2: seq<Event>)
    requires SameTicks(e1, e2)
    ensures Run(l, e1) == Run(l, e2)
    decreases |e1|
  {
    if e1 != [] {
      RunIgnoresRequests(l, e1[..|e1| - 1], e2[..|e2| - 1]);
    }
  }

  // ---------------------------------------------------------------------------------------------
  // CORS

  /** The Access-Control-Allow-Origin value: the first comma-separated entry of
      `QURAN_ALLOWED_ORIGINS`, or `*` when that entry is empty. */
  function AllowOrigin(env: string): (o: string)
    ensures o != [] && ',' !in o
    ensures o == "*" || (HasPrefix(env, o) && (|o| == |env| || env[|o|] == ','))
  {
    var first := BeforeFirst(env, ',');
    if first == [] then "*" else first
  }

  /** A list whose first entry is non-empty allows exactly that entry. */
  lemma AllowOriginFirstEntry(first: string, rest: string)
    requires first != [] && ',' !in first
    ensures AllowOrigin(first + [','] + rest) == first
    ensures AllowOrigin(first) == first
  {
    BeforeFirstStops(first, ',', rest);
    BeforeFirstStops(first, ',', []);
    assert first + [','] + [] == first + [','];
    assert BeforeFirst(first + [','], ',') == first;
    assert HasPrefix(first + [','], BeforeFirst(first, ','));
  }

  /** An unset variable, or a list starting with a comma, allows every origin. */
  lemma AllowOriginWildcard(rest: string)
    ensures AllowOrigin("") == "*"
    ensures AllowOrigin([','] + rest) == "*"
  {
  }

  /** The headers CORS sets on every response it handles. */
  function CorsHeaders(env: string): map<string, string> {
    map["Access-Control-Allow-Origin" := AllowOrigin(env), "Vary" := "Origin"]
  }

  /** The headers of a preflight answer. */
  function PreflightHeaders(env: string): map<string, string> {
    CorsHeaders(env)["Access-Control-Allow-Methods" := "GET,OPTIONS"]["Access-Control-Allow-Headers" := "Content-Type,Authorization"]
  }

  /** The wrapper: an OPTIONS request is answered 204 here; any other request goes to `next`,
      whose own header settings win over the CORS ones. */
  function Cors<P>(env: string, next: Handler<P>, req: Request): (r: Response<P>)
    ensures req.verb == MethodOptions ==> r.status == StatusNoContent && r.body == NoBody
    ensures req.verb != MethodOptions ==> r.status == next(req).status && r.body == next(req).body
    ensures r.headers.Keys >= {"Access-Control-Allow-Origin", "Vary"}
  {
    if req.verb == MethodOptions then Response(StatusNoContent, PreflightHeaders(env), NoBody)
    else
      var n := next(req);
      n.(headers := CorsHeaders(env) + n.headers)
  }

  /** A preflight never reaches `next` and does not depend on anything in the request. */
  lemma PreflightIgnoresNext<P>(env: string, n1: Handler<P>, n2: Handler<P>, r1: Request, r2: Request)
    requires r1.verb == MethodOptions && r2.verb == MethodOptions
    ensures Cors(env, n1, r1) == Cors(env, n2, r2)
    ensures Cors(env, n1, r1).headers["Access-Control-Allow-Methods"] == "GET,OPTIONS"
  {
  }

  /** The allowed origin comes from the configuration, never from the request's Origin header:
      unless the wrapped handler sets the header itself, it reads `AllowOrigin(env)`. */
  lemma CorsOriginFixed<P>(env: string, next: Handler<P>, req: Request)
    requires req.verb == MethodOptions || "Access-Control-Allow-Origin" !in next(req).headers
    ensures Cors(env, next, req).headers["Access-Control-Allow-Origin"] == AllowOrigin(env)
  {
  }
}

=== FILE: numbers.dfy ===
/** Decimal formatting and parsing with the meaning of Go's `strconv.Itoa`, `strconv.ParseInt`,
    `strconv.Atoi` and the `%d` / `%03d` verbs of `fmt`. */
module Numbers {

  predicate IsDigit(c: char) {
    '0' <= c <= '9'
  }

  predicate AllDigits(s: string) {
    forall i :: 0 <= i < |s| ==> IsDigit(s[i])
  }

  function DigitValue(c: char): nat
    requires IsDigit(c)
  {
    c as int - '0' as int
  }

  function DigitChar(d: nat): (c: char)
    requires d < 10
    ensures IsDigit(c) && DigitValue(c) == d
  {
    ('0' as int + d) as char
  }

  /** The number a digit string denotes, most significant digit first. */
  function DigitsValue(s: string): nat
    requires AllDigits(s)
    decreases |s|
  {
    if s == [] then 0 else DigitsValue(s[..|s| - 1]) * 10 + DigitValue(s[|s| - 1])
  }

  /** The shortest decimal numeral of `n`: no leading zero unless `n` is zero. */
  function NatDigits(n: nat): (r: string)
    ensures 1 <= |r| && AllDigits(r)
    ensures DigitsValue(r) == n
    ensures (r[0] == '0') == (n == 0)
    ensures (|r| == 1) == (n < 10)
    ensures (|r| <= 2) == (n < 100)
    ensures (|r| <= 3) == (n < 1000)
  {
    if n < 10 then [DigitChar(n)]
    else
      var r := NatDigits(n / 10) + [DigitChar(n % 10)];
      assert r[..|r| - 1] == NatDigits(n / 10);
      r
  }

  /** `strconv.Itoa(n)`, which is also what `fmt` prints for `%d`. */
  function Itoa(n: int): (r: string)
    ensures 1 <= |r|
    ensures n >= 0 ==> AllDigits(r) && DigitsValue(r) == n
    ensures n < 0 ==> r[0] == '-' && AllDigits(r[1..]) && DigitsValue(r[1..]) == -n
    ensures n >= 0 ==> (r[0] == '0' <==> n == 0)
    ensures n < 0 ==> |r| >= 2 && r[1] != '0'
  {
    if n < 0 then "-" + NatDigits(-n) else NatDigits(n)
  }

  /** A numeral never contains a character other than a digit or a leading minus sign. */
  lemma ItoaAlphabet(n: int, c: char)
    requires c in Itoa(n)
    ensures IsDigit(c) || c == '-'
  {
    var i :| 0 <= i < |Itoa(n)| && Itoa(n)[i] == c;
    if n < 0 && i > 0 {
      assert c == Itoa(n)[1..][i - 1];
    }
  }

  function Zeros(k: int): (z: string)
    ensures |z| == if k > 0 then k else 0
    ensures forall i :: 0 <= i < |z| ==> z[i] == '0'
  {
    if k <= 0 then [] else ['0'] + Zeros(k - 1)
  }

  /** Leading zeros do not change the value of a digit string. */
  lemma {:induction false} LeadingZerosValue(z: string, d: string)
    requires forall i :: 0 <= i < |z| ==> z[i] == '0'
    requires AllDigits(d)
    ensures AllDigits(z + d) && DigitsValue(z + d) == DigitsValue(d)
    decreases |d|, |z|
  {
    if d == [] {
      assert z + d == z;
      if z != [] {
        assert z[..|z| - 1] + [] == z[..|z| - 1];
        LeadingZerosValue(z[..|z| - 1], []);
      }
    } else {
      assert (z + d)[..|z + d| - 1] == z + d[..|d| - 1];
      LeadingZerosValue(z, d[..|d| - 1]);
    }
  }

  /** `fmt.Sprintf("%03d", n)`: zero-padded to width three, the sign counting towards the width,
      never truncated. */
  function Pad3(n: int): (r: string)
    ensures 0 <= n < 1000 ==> |r| == 3 && AllDigits(r) && DigitsValue(r) == n
    ensures n >= 1000 ==> r == NatDigits(n)
  {
    if n < 0 then
      "-" + Zeros(2 - |NatDigits(-n)|) + NatDigits(-n)
    else
      var r := Zeros(3 - |NatDigits(n)|) + NatDigits(n);
      LeadingZerosValue(Zeros(3 - |NatDigits(n)|), NatDigits(n));
      r
  }

  /** Integer widths `strconv.ParseInt` is asked for in this program. */
  datatype IntWidth = Int32 | Int64

  /** The largest value `strconv.ParseUint` accepts at this width. */
  function MaxUint(w: IntWidth): nat {
    match w
    case Int32 => 0xFFFF_FFFF
    case Int64 => 0xFFFF_FFFF_FFFF_FFFF
  }

  /** `1 << (bits - 1)`: signed values of the width lie in `[-Cutoff, Cutoff)`. */
  function Cutoff(w: IntWidth): nat {
    match w
    case Int32 => 0x8000_0000
    case Int64 => 0x8000_0000_0000_0000
  }

  /** What a `strconv` parse returns: its value, and whether its error was nil. */
  datatype Parsed = Parsed(value: int, ok: bool)

  /** Length of the longest all-digit prefix of `s`. */
  function DigitRun(s: string): (k: nat)
    ensures k <= |s| && AllDigits(s[..k])
    ensures k < |s| ==> !IsDigit(s[k])
  {
    if s == [] || !IsDigit(s[0]) then 0
    else
      var k := 1 + DigitRun(s[1..]);
      assert s[..k] == [s[0]] + s[1..][..k - 1];
      k
  }

  /** The text after one optional leading sign. */
  function Unsigned(s: string): string {
    if s != [] && (s[0] == '+' || s[0] == '-') then s[1..] else s
  }

  /** A numeral of the width: an optional sign, at least one digit and nothing else, denoting a
      value the width holds. */
  predicate IsNumeral(s: string, w: IntWidth) {
    && Unsigned(s) != []
    && AllDigits(Unsigned(s))
    && -(Cutoff(w) as int) <= SignedValue(s) < Cutoff(w)
  }

  /** The digits a scan reads before it meets a non-digit. */
  function LeadingDigits(s: string): (d: string)
    ensures AllDigits(d) && d <= s
    ensures |d| < |s| ==> !IsDigit(s[|d|])
  {
    s[..DigitRun(s)]
  }

  /** `strconv`'s syntax error: nothing after the optional sign, or a non-digit reached while the
      digits read so far still fit the unsigned width (an overflow is reported first). */
  predicate SyntaxError(s: string, w: IntWidth) {
    var u := Unsigned(s);
    u == [] || (!AllDigits(u) && DigitsValue(LeadingDigits(u)) <= MaxUint(w))
  }

  /** The bound a range error clamps to: the most negative value after a minus sign, otherwise
      the largest one. */
  function RangeBound(s: string, w: IntWidth): int {
    if s != [] && s[0] == '-' then -(Cutoff(w) as int) else Cutoff(w) - 1
  }

  /** The value of an optionally signed run of digits. */
  function SignedValue(s: string): int
    requires AllDigits(Unsigned(s))
  {
    if s != [] && s[0] == '-' then -(DigitsValue(Unsigned(s)) as int) else DigitsValue(Unsigned(s))
  }

  /** `strconv.ParseInt(s, 10, bits)`. An optional sign, then decimal digits. A syntax error
      returns 0; a value outside the width returns the nearest bound with a range error, also when
      the overflow happens before a later non-digit (Go's scan stops at the overflow). */
  function ParseInt(s: string, w: IntWidth): (p: Parsed)
    ensures -(Cutoff(w) as int) <= p.value < Cutoff(w)
    ensures !p.ok ==> p.value == 0 || p.value == Cutoff(w) - 1 || p.value == -(Cutoff(w) as int)
    ensures p.ok <==> IsNumeral(s, w)
    ensures p.ok ==> p.value == SignedValue(s)
    ensures SyntaxError(s, w) ==> p == Parsed(0, false)
    ensures !p.ok && !SyntaxError(s, w) ==> p.value == RangeBound(s, w)
  {
    if s == [] then Parsed(0, false)
    else
      var neg := s[0] == '-';
      var body := if s[0] == '+' || s[0] == '-' then s[1..] else s;
      assert body == Unsigned(s);
      var k := DigitRun(body);
      assert AllDigits(body) <==> k == |body| by {
        if AllDigits(body) {
          DigitRunOfDigits(body);
        }
        if k == |body| {
          assert body[..k] == body;
        }
      }
      assert k == |body| ==> body[..k] == body;
      var u := DigitsValue(body[..k]);
      if body == [] || (u <= MaxUint(w) && k < |body|) then Parsed(0, false)
      else if !neg && u >= Cutoff(w) then Parsed(Cutoff(w) - 1, false)
      else if neg && u > Cutoff(w) then Parsed(-(Cutoff(w) as int), false)
      else Parsed(if neg then -(u as int) else u, true)
  }

  /** `strconv.Atoi` on a 64-bit platform, which agrees with `ParseInt(s, 10, 64)`: it succeeds
      exactly on a signed numeral of a 64-bit value, and a failure reads as 0 or a clamped
      bound. */
  function Atoi(s: string): (p: Parsed)
    ensures -(Cutoff(Int64) as int) <= p.value < Cutoff(Int64)
    ensures p.ok <==> IsNumeral(s, Int64)
    ensures p.ok ==> p.value == SignedValue(s)
    ensures !p.ok ==> p.value == 0 || p.value == Cutoff(Int64) - 1 || p.value == -(Cutoff(Int64) as int)
    ensures SyntaxError(s, Int64) ==> p == Parsed(0, false)
    ensures !p.ok && !SyntaxError(s, Int64) ==> p.value == RangeBound(s, Int64)
  {
    ParseInt(s, Int64)
  }

  lemma DigitRunOfDigits(s: string)
    requires AllDigits(s)
    ensures DigitRun(s) == |s|
  {
    if s != [] {
      DigitRunOfDigits(s[1..]);
    }
  }

  /** Parsing undoes formatting: every value of the width reads back from its numeral. */
  lemma ParseItoa(n: int, w: IntWidth)
    requires -(Cutoff(w) as int) <= n < Cutoff(w)
    ensures ParseInt(Itoa(n), w) == Parsed(n, true)
  {
    var s := Itoa(n);
    if n < 0 {
      assert s[1..] == NatDigits(-n);
      DigitRunOfDigits(s[1..]);
      assert s[1..][..|s[1..]|] == s[1..];
    } else {
      DigitRunOfDigits(s);
      assert s[..|s|] == s;
    }
  }

  /** Distinct values of a width have distinct numerals. */
  lemma ItoaInjective(n: int, m: int)
    requires Itoa(n) == Itoa(m)
    ensures n == m
  {
    var w := Int64;
    if -(Cutoff(w) as int) <= n < Cutoff(w) && -(Cutoff(w) as int) <= m < Cutoff(w) {
      ParseItoa(n, w);
      ParseItoa(m, w);
    } else if n < 0 {
      assert Itoa(m)[0] == '-';
      assert DigitsValue(Itoa(n)[1..]) == -n;
    } else {
      assert Itoa(m)[0] != '-';
    }
  }

  /** Text that starts with neither a digit nor a sign is a syntax error and reads as 0. */
  lemma ParseNonNumeric(s: string, w: IntWidth)
    requires s == [] || (!IsDigit(s[0]) && s[0] != '+' && s[0] != '-')
    ensures ParseInt(s, w) == Parsed(0, false)
  {
  }

  lemma {:induction false} DigitRunStops(d: string, c: char, rest: string)
    requires AllDigits(d) && !IsDigit(c)
    ensures DigitRun(d + [c] + rest) == |d|
    decreases |d|
  {
    if d != [] {
      assert (d + [c] + rest)[1..] == d[1..] + [c] + rest;
      DigitRunStops(d[1..], c, rest);
    }
  }

  /** Digits followed by a non-digit are a syntax error, and read as 0, whenever the digits
      before it fit the unsigned width: `5x`, `+12abc`, `1 ` all parse to 0. */
  lemma ParseSyntaxError(sign: string, d: string, c: char, rest: string, w: IntWidth)
    requires sign == "+" || sign == "-" || (sign == "" && d != [])
    requires AllDigits(d) && !IsDigit(c)
    requires DigitsValue(d) <= MaxUint(w)
    ensures SyntaxError(sign + (d + [c] + rest), w)
    ensures ParseInt(sign + (d + [c] + rest), w) == Parsed(0, false)
  {
    var u := d + [c] + rest;
    UnsignedAfterSign(sign, u);
    DigitRunStops(d, c, rest);
    assert u[..|d|] == d;
    assert u[|d|] == c;
  }

  lemma UnsignedAfterSign(sign: string, u: string)
    requires sign == "+" || sign == "-" || (sign == "" && u != [] && IsDigit(u[0]))
    ensures Unsigned(sign + u) == u
  {
    if sign != "" {
      assert (sign + u)[1..] == u;
    }
  }

  /** Text with a stray character after its digits reads as 0, not as a bound. */
  lemma SyntaxErrorExample()
    ensures Atoi("5x") == Parsed(0, false)
  {
    ParseSyntaxError("", "5", 'x', "", Int64);
    assert "" + ("5" + ['x'] + "") == "5x";
  }

  /** A sign with nothing after it is a syntax error. */
  lemma ParseLoneSign(w: IntWidth)
    ensures ParseInt("+", w) == Parsed(0, false)
    ensures ParseInt("-", w) == Parsed(0, false)
  {
    assert Unsigned("+") == [] && Unsigned("-") == [];
  }
}

=== FILE: search.dfy ===
/** Full-text search over ayahs: the query handling of `SearchAyah` around an engine whose
    matching and ranking stay abstract. */
module Search {
  import opened Wrappers
  import opened Text

  /** One search hit: the ayah's key and the engine's highlighted snippet. */
  datatype Hit = Hit(surah: int, number: int, snip: string)

  /** The text `snippet()` puts around each matched term. */
  datatype Marks = Marks(open: string, close: string)

  /** The API highlights with bold tags; the web page with `<mark>`. */
  const ApiMarks: Marks := Marks("<b>", "</b>")
  const WebMarks: Marks := Marks("<mark>", "</mark>")

  /** `ayah_fts MATCH q` with snippets highlighted by the given marks: the matching rows in the
      engine's order, or the error the engine reports for a match expression it rejects. */
  type Engine = (Marks, string) -> Result<seq<Hit>, string>

  /** The (surah, ayah) keys of a list of hits, in order. */
  function HitKeys(hits: seq<Hit>): (ks: seq<(int, int)>)
    ensures |ks| == |hits|
    ensures forall i :: 0 <= i < |hits| ==> ks[i] == (hits[i].surah, hits[i].number)
  {
    if hits == [] then [] else [(hits[0].surah, hits[0].number)] + HitKeys(hits[1..])
  }

  /** Two search outcomes that fail alike or find the same ayahs in the same order; their snippets
      may differ. */
  predicate SameMatches(a: Result<seq<Hit>, string>, b: Result<seq<Hit>, string>) {
    && a.Err? == b.Err?
    && (a.Err? ==> a.error == b.error)
    && (a.Ok? ==> HitKeys(a.value) == HitKeys(b.value))
  }

  /** The marks only change the snippet text: which rows match, their order and the error do not
      depend on them, as with SQLite's `snippet()`. */
  ghost predicate MarksOnlyHighlight(engine: Engine) {
    forall m1: Marks, m2: Marks, q: string :: SameMatches(engine(m1, q), engine(m2, q))
  }

  /** Cutting two lists with the same keys to the same limit keeps their keys equal. */
  lemma LimitKeepsKeys(a: seq<Hit>, b: seq<Hit>, n: int)
    requires HitKeys(a) == HitKeys(b)
    ensures HitKeys(Limit(a, n)) == HitKeys(Limit(b, n))
  {
    var la := Limit(a, n);
    var lb := Limit(b, n);
    assert |a| == |b|;
    forall i | 0 <= i < |la| ensures HitKeys(la)[i] == HitKeys(lb)[i] {
      assert HitKeys(a)[i] == HitKeys(b)[i];
    }
  }

  /** The match-everything query a blank search is replaced by. */
  const Wildcard: string := "*"

  /** The query `SearchAyah` hands to the engine: trimmed, with a blank query replaced by `*`. */
  function NormaliseQuery(q: string): (r: string)
    ensures r != [] && Trimmed(r)
    ensures AllSpace(q) ==> r == Wildcard
    ensures !AllSpace(q) ==> r == TrimSpace(q)
  {
    var t := TrimSpace(q);
    if t == [] then Wildcard else t
  }

  /** Normalising twice is normalising once. */
  lemma NormaliseIdempotent(q: string)
    ensures NormaliseQuery(NormaliseQuery(q)) == NormaliseQuery(q)
  {
    var r := NormaliseQuery(q);
    assert !IsSpace(r[0]);
    TrimSpaceOfTrimmed(r);
  }

  /** SQLite's `LIMIT n`: at most `n` rows, and every row when `n` is negative. */
  function Limit<T>(rows: seq<T>, n: int): (r: seq<T>)
    ensures n < 0 ==> r == rows
    ensures 0 <= n ==> |r| == (if |rows| < n then |rows| else n)
    ensures r == rows[..|r|]
  {
    if n < 0 || |rows| <= n then rows else rows[..n]
  }

  /** `SearchAyah(q, limit)`: the first `limit` hits of the normalised query, highlighted with
      bold tags, or the engine's error. */
  function SearchAyah(engine: Engine, q: string, limit: int): (r: Result<seq<Hit>, string>)
    ensures r.Err? <==> engine(ApiMarks, NormaliseQuery(q)).Err?
    ensures r.Err? ==> r.error == engine(ApiMarks, NormaliseQuery(q)).error
    ensures r.Ok? ==> |r.value| <= |engine(ApiMarks, NormaliseQuery(q)).value| && r.value == engine(ApiMarks, NormaliseQuery(q)).value[..|r.value|]
    ensures r.Ok? && 0 <= limit ==> |r.value| <= limit
    ensures r.Ok? && |r.value| < limit ==> r.value == engine(ApiMarks, NormaliseQuery(q)).value
  {
    match engine(ApiMarks, NormaliseQuery(q))
    case Err(e) => Err(e)
    case Ok(hits) => Ok(Limit(hits, limit))
  }

  /** An empty search is the wildcard search. */
  lemma EmptyQueryIsWildcard(engine: Engine, limit: int)
    ensures SearchAyah(engine, "", limit) == SearchAyah(engine, Wildcard, limit)
  {
    assert AllSpace("");
    assert NormaliseQuery("") == Wildcard;
    assert !AllSpace(Wildcard) by { assert !IsSpace(Wildcard[0]); }
    TrimSpaceOfTrimmed(Wildcard);
    assert NormaliseQuery(Wildcard) == Wildcard;
  }

  /** A query already trimmed by the caller searches the same as the raw one. */
  lemma SearchAfterTrim(engine: Engine, q: string, limit: int)
    ensures SearchAyah(engine, TrimSpace(q), limit) == SearchAyah(engine, q, limit)
  {
    NormaliseAfterTrim(q);
  }

  lemma NormaliseAfterTrim(q: string)
    ensures NormaliseQuery(TrimSpace(q)) == NormaliseQuery(q)
  {
    var t := TrimSpace(q);
    TrimSpaceIdempotent(q);
    if AllSpace(q) {
      assert t == [];
    } else {
      assert t != [];
      assert !IsSpace(t[0]);
    }
  }
}

=== FILE: tables.dfy ===
/** The two SQLite tables the program reads and writes, as maps keyed by their unique columns:
    `surah` by `number`, `ayah` by `(surah, number)`. `INSERT OR REPLACE` is map update. */
module Tables {

  datatype SurahRow = SurahRow(nameAr: string, nameLatin: string, revelation: string, versesCount: int)

  datatype AyahRow = AyahRow(juz: int, arabic: string, tajweed: string, trans: string, audioUrl: string)

  /** `(surah, number)` of an ayah row. */
  type AyahKey = (int, int)

  datatype Db = Db(surah: map<int, SurahRow>, ayah: map<AyahKey, AyahRow>)

  const EmptyDb: Db := Db(map[], map[])

  /** `SELECT ... FROM ayah WHERE surah = n`, keyed by ayah number. */
  function AyahsOf(db: Db, n: int): (r: map<int, AyahRow>)
    ensures forall j :: j in r <==> (n, j) in db.ayah
    ensures forall j :: j in r ==> r[j] == db.ayah[(n, j)]
  {
    map k | k in db.ayah && k.0 == n :: k.1 := db.ayah[k]
  }

  /** `(SELECT COUNT(*) FROM ayah a WHERE a.surah = n)`. */
  function AyahCount(db: Db, n: int): nat {
    |AyahsOf(db, n)|
  }

  /** `SELECT COUNT(*) FROM ayah WHERE surah BETWEEN lo AND hi`. */
  function AyahCountBetween(db: Db, lo: int, hi: int): nat {
    |set k | k in db.ayah && lo <= k.0 <= hi|
  }

  /** A set with a member has a least member. */
  lemma {:induction false} LeastExists(s: set<int>) returns (m: int)
    requires exists z :: z in s
    ensures m in s
    ensures forall x :: x in s ==> m <= x
    decreases |s|
  {
    var y :| y in s;
    var rest := s - {y};
    if exists z :: z in rest {
      var k := LeastExists(rest);
      m := if y < k then y else k;
      forall x | x in s ensures m <= x {
        if x != y { assert x in rest; }
      }
    } else {
      m := y;
      forall x | x in s ensures m <= x {
        assert x !in rest;
      }
    }
  }

  lemma HasLeast(s: set<int>)
    requires exists z :: z in s
    ensures exists m :: m in s && forall x :: x in s ==> m <= x
  {
    var m := LeastExists(s);
  }

  /** The least member of a set that has one. */
  function Least(s: set<int>): (m: int)
    requires exists z :: z in s
    ensures m in s && forall x :: x in s ==> m <= x
  {
    HasLeast(s);
    var m :| m in s && forall x :: x in s ==> m <= x;
    m
  }

  /** The members of `s` in increasing order: what `ORDER BY` yields over a unique integer
      column. */
  function Ascending(s: set<int>): seq<int>
    decreases |s|
  {
    if exists z :: z in s then [Least(s)] + Ascending(s - {Least(s)}) else []
  }

  /** `Ascending(s)` lists each member of `s` once and nothing else. */
  lemma {:induction false} AscendingMembers(s: set<int>)
    ensures |Ascending(s)| == |s|
    ensures forall i :: 0 <= i < |Ascending(s)| ==> Ascending(s)[i] in s
    ensures forall x :: x in s ==> x in Ascending(s)
    decreases |s|
  {
    if exists z :: z in s {
      var m := Least(s);
      var rest := Ascending(s - {m});
      AscendingMembers(s - {m});
      forall x | x in s ensures x in Ascending(s) {
        if x != m { assert x in rest; }
      }
    } else {
      assert s == {};
    }
  }

  /** `Ascending(s)` is strictly increasing. */
  lemma {:induction false} AscendingSorted(s: set<int>)
    ensures forall i, j :: 0 <= i < j < |Ascending(s)| ==> Ascending(s)[i] < Ascending(s)[j]
    decreases |s|
  {
    if exists z :: z in s {
      var m := Least(s);
      var r := Ascending(s);
      var rest := Ascending(s - {m});
      AscendingSorted(s - {m});
      AscendingMembers(s - {m});
      forall i, j | 0 <= i < j < |r| ensures r[i] < r[j] {
        assert r[j] == rest[j - 1];
        if i > 0 { assert r[i] == rest[i - 1]; }
        else { assert r[j] in s - {m}; }
      }
    }
  }

  /** The entries of a map with integer keys in increasing key order: the rows of
      `SELECT ... ORDER BY <key>`. */
  function OrderedEntries<V>(m: map<int, V>): (es: seq<(int, V)>)
    ensures |es| == |m|
    ensures forall i :: 0 <= i < |es| ==> es[i].0 in m && es[i].1 == m[es[i].0]
    ensures forall i, j :: 0 <= i < j < |es| ==> es[i].0 < es[j].0
    ensures forall k :: k in m ==> exists i :: 0 <= i < |es| && es[i].0 == k
  {
    var ks := Ascending(m.Keys);
    AscendingMembers(m.Keys);
    AscendingSorted(m.Keys);
    var es := EntriesOf(ks, m);
    forall i | 0 <= i < |es| ensures es[i].0 == ks[i] && es[i].0 in m && es[i].1 == m[es[i].0] {
      assert es[i] == (ks[i], m[ks[i]]);
    }
    forall k | k in m ensures exists i :: 0 <= i < |es| && es[i].0 == k {
      var i :| 0 <= i < |ks| && ks[i] == k;
      assert es[i].0 == k;
    }
    es
  }

  /** Each key of `ks` paired with its value in `m`, in the order of `ks`. */
  function EntriesOf<V>(ks: seq<int>, m: map<int, V>): (es: seq<(int, V)>)
    requires forall i :: 0 <= i < |ks| ==> ks[i] in m
    ensures |es| == |ks|
    ensures forall i :: 0 <= i < |ks| ==> es[i] == (ks[i], m[ks[i]])
  {
    if ks == [] then [] else [(ks[0], m[ks[0]])] + EntriesOf(ks[1..], m)
  }

  /** The rows `f` makes of a sequence of entries, one per entry and in the same order. */
  function MapEntries<V, R>(es: seq<(int, V)>, f: (int, V) -> R): (rows: seq<R>)
    ensures |rows| == |es|
    ensures forall i :: 0 <= i < |es| ==> rows[i] == f(es[i].0, es[i].1)
  {
    if es == [] then [] else [f(es[0].0, es[0].1)] + MapEntries(es[1..], f)
  }
}

=== FILE: text.dfy ===
/** String helpers with the meaning of Go's `strings` package and `len`, over Unicode scalar values. */
module Text {

  /** Go's `unicode.IsSpace`: exactly the characters with the Unicode White_Space property. */
  predicate IsSpace(c: char) {
    || '\t' <= c <= '\r'
    || c == ' '
    || c == '\U{85}'
    || c == '\U{A0}'
    || c == '\U{1680}'
    || '\U{2000}' <= c <= '\U{200A}'
    || c == '\U{2028}'
    || c == '\U{2029}'
    || c == '\U{202F}'
    || c == '\U{205F}'
    || c == '\U{3000}'
  }

  predicate AllSpace(s: string) {
    forall i :: 0 <= i < |s| ==> IsSpace(s[i])
  }

  /** Neither end of `s` is white space. */
  predicate Trimmed(s: string) {
    s == [] || (!IsSpace(s[0]) && !IsSpace(s[|s| - 1]))
  }

  /** `l` is `s` without its leading white space. */
  predicate StripsLeft(s: string, l: string) {
    && |l| <= |s| && l == s[|s| - |l|..]
    && (forall k :: 0 <= k < |s| - |l| ==> IsSpace(s[k]))
    && (l == [] || !IsSpace(l[0]))
  }

  /** `r` is `l` without its trailing white space. */
  predicate StripsRight(l: string, r: string) {
    && |r| <= |l| && r == l[..|r|]
    && (forall k :: |r| <= k < |l| ==> IsSpace(l[k]))
    && (r == [] || !IsSpace(r[|r| - 1]))
  }

  /** `strings.TrimLeftFunc(s, unicode.IsSpace)`. */
  function TrimLeftSpace(s: string): (r: string)
    ensures StripsLeft(s, r)
  {
    if |s| > 0 && IsSpace(s[0]) then TrimLeftSpace(s[1..]) else s
  }

  /** `strings.TrimRightFunc(s, unicode.IsSpace)`. */
  function TrimRightSpace(s: string): (r: string)
    ensures StripsRight(s, r)
  {
    if |s| > 0 && IsSpace(s[|s| - 1]) then TrimRightSpace(s[..|s| - 1]) else s
  }

  /** `r` is `s[i..i + |r|]` and everything around it in `s` is white space. */
  predicate SpaceBorder(s: string, r: string, i: int) {
    && 0 <= i <= |s| - |r|
    && r == s[i..i + |r|]
    && (forall k :: 0 <= k < i ==> IsSpace(s[k]))
    && (forall k :: i + |r| <= k < |s| ==> IsSpace(s[k]))
  }

  /** `strings.TrimSpace`: `s` with its white-space border removed on both sides. */
  function TrimSpace(s: string): (r: string)
    ensures Trimmed(r)
    ensures |r| <= |s|
    ensures exists i :: SpaceBorder(s, r, i)
    ensures r == [] <==> AllSpace(s)
  {
    var l := TrimLeftSpace(s);
    var r := TrimRightSpace(l);
    TrimSpaceBorder(s, l, r);
    r
  }

  /** Stripping both ends leaves a trimmed slice of `s` with only white space around it. */
  lemma TrimSpaceBorder(s: string, l: string, r: string)
    requires StripsLeft(s, l) && StripsRight(l, r)
    ensures Trimmed(r)
    ensures SpaceBorder(s, r, |s| - |l|)
    ensures r == [] <==> AllSpace(s)
  {
    var i := |s| - |l|;
    if r != [] {
      assert r[0] == l[0];
      assert !IsSpace(s[i]);
    }
    assert r == s[i..i + |r|];
    forall k | i + |r| <= k < |s| ensures IsSpace(s[k]) {
      assert s[k] == l[k - i];
    }
  }

  /** Trimming is idempotent: a trimmed string is its own trim. */
  lemma TrimSpaceOfTrimmed(s: string)
    requires Trimmed(s)
    ensures TrimSpace(s) == s
  {
  }

  /** `strings.TrimSpace(strings.TrimSpace(s)) == strings.TrimSpace(s)`. */
  lemma TrimSpaceIdempotent(s: string)
    ensures TrimSpace(TrimSpace(s)) == TrimSpace(s)
  {
    TrimSpaceOfTrimmed(TrimSpace(s));
  }

  /** Bytes `c` occupies in UTF-8. */
  function Utf8Width(c: char): nat {
    if c < '\U{80}' then 1 else if c < '\U{800}' then 2 else if c < '\U{10000}' then 3 else 4
  }

  predicate IsAscii(s: string) {
    forall i :: 0 <= i < |s| ==> s[i] < '\U{80}'
  }

  /** Go's `len(s)`: the number of bytes in the UTF-8 encoding of `s`. */
  function ByteLen(s: string): (n: nat)
    ensures |s| <= n <= 4 * |s|
    ensures IsAscii(s) ==> n == |s|
  {
    if s == [] then 0 else Utf8Width(s[0]) + ByteLen(s[1..])
  }

  predicate HasPrefix(s: string, p: string) {
    |p| <= |s| && s[..|p|] == p
  }

  /** `strings.TrimPrefix`. */
  function TrimPrefix(s: string, p: string): (r: string)
    ensures HasPrefix(s, p) ==> s == p + r
    ensures !HasPrefix(s, p) ==> r == s
  {
    if HasPrefix(s, p) then s[|p|..] else s
  }

  /** `strings.TrimLeft(s, cutset)` for a one-character cutset. */
  function TrimLeftChar(s: string, c: char): (r: string)
    ensures |r| <= |s| && r == s[|s| - |r|..]
    ensures forall i :: 0 <= i < |s| - |r| ==> s[i] == c
    ensures r == [] || r[0] != c
  {
    if |s| > 0 && s[0] == c then TrimLeftChar(s[1..], c) else s
  }

  /** `strings.Split(s, sep)[0]` for a one-character separator: the text before the first `sep`. */
  function BeforeFirst(s: string, sep: char): (r: string)
    ensures HasPrefix(s, r)
    ensures sep !in r
    ensures |r| < |s| ==> s[|r|] == sep
  {
    if s == [] || s[0] == sep then [] else [s[0]] + BeforeFirst(s[1..], sep)
  }

  /** The text before the first separator is everything up to a separator placed after
      separator-free text. */
  lemma {:induction false} BeforeFirstStops(a: string, sep: char, b: string)
    requires sep !in a
    ensures BeforeFirst(a + [sep] + b, sep) == a
  {
    if a == [] {
      assert (a + [sep] + b)[0] == sep;
    } else {
      assert (a + [sep] + b)[1..] == a[1..] + [sep] + b;
      BeforeFirstStops(a[1..], sep, b);
    }
  }
}

=== FILE: verify.dfy ===
/** quran-verify: the offline consistency check run against a store, stricter than `/stats`. */
module Verify {
  import opened Numbers
  import opened Tables
  import opened Api

  const TailFirst := 94
  const TailLast := 114

  /** The line printed for an inconsistent row. */
  function MismatchLine(r: CountRow): string {
    "mismatch: surah " + Itoa(r.surah) + " verses=" + Itoa(r.verses) + " ayah=" + Itoa(r.ayah)
  }

  /** The loop over the count rows: how many are inconsistent, and those rows, in row order (a
      line is printed for each of them). */
  method CountBad(rows: seq<CountRow>) returns (bad: nat, listed: seq<CountRow>)
    ensures listed == Mismatches(rows)
    ensures bad == |listed|
    ensures forall r :: r in listed <==> r in rows && r.verses != r.ayah
  {
    bad := 0;
    listed := [];
    var i := 0;
    while i < |rows|
      invariant 0 <= i <= |rows|
      invariant listed == Mismatches(rows[..i])
      invariant bad == |listed|
    {
      MismatchesStep(rows, i);
      if rows[i].verses != rows[i].ayah {
        listed := listed + [rows[i]];
        bad := bad + 1;
      }
      i := i + 1;
    }
    assert rows[..|rows|] == rows;
    MismatchesMembers(rows);
  }

  /** The printed line of each listed row, in order. */
  function LinesOf(rs: seq<CountRow>): (ls: seq<string>)
    ensures |ls| == |rs|
    ensures forall k :: 0 <= k < |rs| ==> ls[k] == MismatchLine(rs[k])
  {
    if rs == [] then [] else [MismatchLine(rs[0])] + LinesOf(rs[1..])
  }

  lemma MismatchesStep(rows: seq<CountRow>, i: int)
    requires 0 <= i < |rows|
    ensures Mismatches(rows[..i + 1]) == Mismatches(rows[..i]) + (if Consistent(rows[i]) then [] else [rows[i]])
  {
    assert rows[..i + 1][..i] == rows[..i];
  }

  /** `surahTotal != 114 || bad > 0 || tail == 0` is the failure condition. */
  predicate Passes(surahTotal: int, bad: int, tail: int) {
    !(surahTotal != SurahCount || bad > 0 || tail == 0)
  }

  /** The verdict quran-verify reaches on a store. */
  predicate VerifyPasses(db: Db) {
    Passes(|db.surah|, |Mismatches(CountRows(db))|, AyahCountBetween(db, TailFirst, TailLast))
  }

  /** The whole run: the mismatch lines, then the OK line on success or the failure line, and
      whether it exits successfully. */
  method VerifyDb(db: Db) returns (passed: bool, out: seq<string>)
    ensures passed <==> VerifyPasses(db)
    ensures passed <==> StatsOf(db).ok && AyahCountBetween(db, TailFirst, TailLast) != 0
    ensures |out| == |Mismatches(CountRows(db))| + 1
    ensures forall k :: 0 <= k < |out| - 1 ==> out[k] == MismatchLine(Mismatches(CountRows(db))[k])
    ensures out[|out| - 1] == (if passed then "verify: OK (114 surah; counts consistent)" else
      "verify failed: surah=" + Itoa(|db.surah|) + " mismatches=" + Itoa(|Mismatches(CountRows(db))|)
        + " tail_ayah=" + Itoa(AyahCountBetween(db, TailFirst, TailLast)))
  {
    var surahTotal := |db.surah|;
    var tail := AyahCountBetween(db, TailFirst, TailLast);
    var bad, listed := CountBad(CountRows(db));
    var lines := LinesOf(listed);
    if surahTotal != SurahCount || bad > 0 || tail == 0 {
      passed := false;
      out := lines + ["verify failed: surah=" + Itoa(surahTotal) + " mismatches=" + Itoa(bad) + " tail_ayah=" + Itoa(tail)];
    } else {
      passed := true;
      out := lines + ["verify: OK (114 surah; counts consistent)"];
    }
  }

  /** Passing quran-verify implies `/stats` reports ok. */
  lemma VerifyImpliesStatsOk(db: Db)
    requires VerifyPasses(db)
    ensures StatsOf(db).ok
  {
  }

  /** 114 surahs that each declare zero verses and no stored ayahs. */
  function VersesFree(k: int): map<int, SurahRow>
    decreases k
  {
    if k <= 0 then map[] else VersesFree(k - 1)[k := SurahRow("", "", "", 0)]
  }

  lemma {:induction false} VersesFreeSize(k: nat)
    ensures |VersesFree(k)| == k
    ensures forall n :: n in VersesFree(k) ==> 1 <= n <= k && VersesFree(k)[n].versesCount == 0
  {
    if k > 0 {
      VersesFreeSize(k - 1);
    }
  }

  /** The converse fails: a store of 114 surahs declaring no verses and holding no ayahs passes
      `/stats` but fails quran-verify on its empty tail. */
  lemma StatsOkDoesNotImplyVerify()
    ensures var db := Db(VersesFree(SurahCount), map[]);
      StatsOf(db).ok && !VerifyPasses(db)
  {
    var db := Db(VersesFree(SurahCount), map[]);
    VersesFreeSize(SurahCount);
    forall n | n in db.surah ensures db.surah[n].versesCount == AyahCount(db, n) {
      assert AyahsOf(db, n) == map[];
    }
    StatsOkIff(db);
    assert (set k | k in db.ayah && TailFirst <= k.0 <= TailLast) == {};
  }
}

=== FILE: web.dfy ===
/** quran-web, and the web half of quran-all: the chapter-number parse of `/s/<n>`, the
    `surah:ayah` reference labels, and the raw search. The HTML they are written into is not
    modelled. */
module Web {
  import opened Wrappers
  import opened Text
  import opened Numbers
  import opened Tables
  import opened Http
  import opened Search

  const ChapterPrefix: string := "/s/"
  const WebSearchLimit := 50

  /** The chapter of `/s/<x>`: `strconv.Atoi(x)` with its error dropped, and no range check. The
      route only matches paths under `/s/`. */
  function ChapterParam(path: string): (n: int)
    requires HasPrefix(path, ChapterPrefix)
    ensures -(Cutoff(Int64) as int) <= n < Cutoff(Int64)
    ensures IsNumeral(path[|ChapterPrefix|..], Int64) ==> n == SignedValue(path[|ChapterPrefix|..])
    ensures !IsNumeral(path[|ChapterPrefix|..], Int64) ==>
      n == 0 || n == Cutoff(Int64) - 1 || n == -(Cutoff(Int64) as int)
    ensures SyntaxError(path[|ChapterPrefix|..], Int64) ==> n == 0
    ensures !IsNumeral(path[|ChapterPrefix|..], Int64) && !SyntaxError(path[|ChapterPrefix|..], Int64) ==>
      n == RangeBound(path[|ChapterPrefix|..], Int64)
  {
    Atoi(path[|ChapterPrefix|..]).value
  }

  /** Any 64-bit number's numeral selects that chapter, inside 1..114 or not. */
  lemma ChapterParamOfNumeral(n: int)
    requires -(Cutoff(Int64) as int) <= n < Cutoff(Int64)
    ensures HasPrefix(ChapterPrefix + Itoa(n), ChapterPrefix)
    ensures ChapterParam(ChapterPrefix + Itoa(n)) == n
  {
    assert (ChapterPrefix + Itoa(n))[|ChapterPrefix|..] == Itoa(n);
    ParseItoa(n, Int64);
  }

  /** Text that is not a number selects chapter 0. */
  lemma ChapterParamNonNumeric(x: string)
    requires SyntaxError(x, Int64)
    ensures HasPrefix(ChapterPrefix + x, ChapterPrefix)
    ensures ChapterParam(ChapterPrefix + x) == 0
  {
    assert (ChapterPrefix + x)[|ChapterPrefix|..] == x;
  }

  /** The reference label of ayah `a` of chapter `n`: `n:a`. Its first colon separates the two
      numerals. */
  function RefLabel(n: int, a: int): (r: string)
    ensures ':' in r
    ensures BeforeFirst(r, ':') == Itoa(n)
    ensures r[|Itoa(n)| + 1..] == Itoa(a)
  {
    var r := Itoa(n) + ":" + Itoa(a);
    assert r[|Itoa(n)|] == ':';
    ItoaHasNoColon(n);
    BeforeFirstStops(Itoa(n), ':', Itoa(a));
    assert r == Itoa(n) + [':'] + Itoa(a);
    r
  }

  /** The two numbers of a `n:a` label. */
  function RefParts(text: string): Option<(int, int)> {
    var before := BeforeFirst(text, ':');
    if |before| < |text| then Some((Atoi(before).value, Atoi(text[|before| + 1..]).value)) else None
  }

  lemma ItoaHasNoColon(n: int)
    ensures ':' !in Itoa(n)
  {
    if ':' in Itoa(n) {
      ItoaAlphabet(n, ':');
    }
  }

  /** A label reads back as the chapter and ayah it was made from. */
  lemma RefLabelRoundTrip(n: int, a: int)
    requires -(Cutoff(Int64) as int) <= n < Cutoff(Int64)
    requires -(Cutoff(Int64) as int) <= a < Cutoff(Int64)
    ensures RefParts(RefLabel(n, a)) == Some((n, a))
  {
    var r := RefLabel(n, a);
    ItoaHasNoColon(n);
    BeforeFirstStops(Itoa(n), ':', Itoa(a));
    assert r == Itoa(n) + [':'] + Itoa(a);
    assert r[|Itoa(n)| + 1..] == Itoa(a);
    ParseItoa(n, Int64);
    ParseItoa(a, Int64);
  }

  /** Distinct ayahs get distinct labels. */
  lemma RefLabelInjective(n1: int, a1: int, n2: int, a2: int)
    requires -(Cutoff(Int64) as int) <= n1 < Cutoff(Int64) && -(Cutoff(Int64) as int) <= a1 < Cutoff(Int64)
    requires -(Cutoff(Int64) as int) <= n2 < Cutoff(Int64) && -(Cutoff(Int64) as int) <= a2 < Cutoff(Int64)
    requires RefLabel(n1, a1) == RefLabel(n2, a2)
    ensures n1 == n2 && a1 == a2
  {
    RefLabelRoundTrip(n1, a1);
    RefLabelRoundTrip(n2, a2);
  }

  /** A bookmark links to `/s/` followed by the label's text before its first colon; that link
      selects the bookmarked chapter again. */
  lemma BookmarkLinkSelectsChapter(n: int, a: int)
    requires -(Cutoff(Int64) as int) <= n < Cutoff(Int64)
    ensures HasPrefix(ChapterPrefix + BeforeFirst(RefLabel(n, a), ':'), ChapterPrefix)
    ensures ChapterParam(ChapterPrefix + BeforeFirst(RefLabel(n, a), ':')) == n
  {
    ItoaHasNoColon(n);
    BeforeFirstStops(Itoa(n), ':', Itoa(a));
    assert RefLabel(n, a) == Itoa(n) + [':'] + Itoa(a);
    ChapterParamOfNumeral(n);
  }

  /** One ayah as `/s/<n>` shows it: its label and its stored row. */
  datatype ChapterAyah = ChapterAyah(ref: string, row: AyahRow)

  /** `/s/<x>`: every stored ayah of the selected chapter, keyed by ayah number (the query has no
      `ORDER BY`), each with its label. */
  function Chapter(db: Db, path: string): (r: map<int, ChapterAyah>)
    requires HasPrefix(path, ChapterPrefix)
    ensures var n := ChapterParam(path);
      forall a :: a in r <==> (n, a) in db.ayah
    ensures var n := ChapterParam(path);
      forall a :: a in r ==> r[a] == ChapterAyah(RefLabel(n, a), db.ayah[(n, a)])
  {
    var n := ChapterParam(path);
    var rows := AyahsOf(db, n);
    map a | a in rows :: ChapterAyah(RefLabel(n, a), rows[a])
  }

  /** A non-numeric chapter shows what the store holds under surah 0: the rows of malformed
      catalogue entries never have ayahs, so the page is empty unless such rows exist. */
  lemma NonNumericChapterIsZero(db: Db, x: string)
    requires x == [] || (!IsDigit(x[0]) && x[0] != '+' && x[0] != '-')
    ensures HasPrefix(ChapterPrefix + x, ChapterPrefix)
    ensures Chapter(db, ChapterPrefix + x).Keys == AyahsOf(db, 0).Keys
  {
    ChapterParamNonNumeric(x);
  }

  /** The web `/search`: the raw `q` goes to the engine, untrimmed and without the wildcard
      substitution, highlighted with `<mark>` and limited to 50 hits. */
  function WebSearch(engine: Engine, req: Request): (r: Result<seq<Hit>, string>)
    ensures var all := engine(WebMarks, QueryParam(req, "q"));
      && (r.Err? <==> all.Err?)
      && (r.Err? ==> r.error == all.error)
      && (r.Ok? ==>
            && |r.value| == (if |all.value| < WebSearchLimit then |all.value| else WebSearchLimit)
            && r.value == all.value[..|r.value|])
  {
    match engine(WebMarks, QueryParam(req, "q"))
    case Err(e) => Err(e)
    case Ok(hits) => Ok(Limit(hits, WebSearchLimit))
  }

  /** For a query that is already trimmed and not blank, the web search and the API's search find
      the same ayahs in the same order, or fail alike; only the snippet highlighting differs. */
  lemma WebSearchAgreesOnTrimmed(engine: Engine, req: Request)
    requires MarksOnlyHighlight(engine)
    requires var q := QueryParam(req, "q"); q != [] && Trimmed(q)
    ensures SameMatches(WebSearch(engine, req), SearchAyah(engine, QueryParam(req, "q"), WebSearchLimit))
  {
    var q := QueryParam(req, "q");
    TrimSpaceOfTrimmed(q);
    assert !IsSpace(q[0]);
    assert NormaliseQuery(q) == q;
    var w := engine(WebMarks, q);
    var a := engine(ApiMarks, q);
    assert SameMatches(w, a);
    if w.Ok? {
      LimitKeepsKeys(w.value, a.value, WebSearchLimit);
    }
  }

  /** A hypothetical engine that rejects the empty match expression. */
  function RejectsEmpty(m: Marks, q: string): Result<seq<Hit>, string> {
    if q == [] then Err("empty match expression") else Ok([])
  }

  /** The two searches part ways on a blank query: the API searches `*`, the web page passes the
      empty text on, so an engine that rejects empty text fails only the web search. */
  lemma BlankQueryDiffers()
    ensures WebSearch(RejectsEmpty, Request(MethodGet, "/search", map["q" := ""], map[])).Err?
    ensures SearchAyah(RejectsEmpty, "", WebSearchLimit).Ok?
  {
    assert AllSpace("");
  }
}

=== FILE: wrappers.dfy ===
/** Failure-carrying datatypes shared by the whole model. */
module Wrappers {

  /** A value that may be absent. */
  datatype Option<+T> = None | Some(value: T) {

    /** The value, or `default` when there is none. */
    function GetOr(default: T): T {
      match this
      case Some(v) => v
      case None => default
    }
  }

  /** The value of a computation that may fail with an error of type `E`. */
  datatype Result<+R, +E> = Ok(value: R) | Err(error: E) {

    /** The value, or `default` on failure (Go's `v, _ := f()` idiom). */
    function GetOr(default: R): R {
      match this
      case Ok(v) => v
      case Err(_) => default
    }
  }
}
